=== FILE: README.md ===
# CodeWhisperer: a Dafny model of the voice-driven debugger

CodeWhisperer is a web application for learning to debug. On the debugger page a learner
pastes or dictates code, asks for help, and an AI service explains the error. The explanation
is shown, optionally read aloud, and stored as a debugging session. Around it sit:
- a voice-controls component: speech input and output;
- a code editor with one example per language;
- an explanation panel;
- tutorials, progress, dashboard and settings pages that compute statistics, badges and defaults.

This project models the decision and state logic of those components and proves what they
promise. One Dafny module per source component:

| module | component | form |
|---|---|---|
| `Wrappers`, `Text`, `Entities` | shared: optional values, the JavaScript string operations used (`toLowerCase`, `includes`, `trim`, `slice`), the stored entities | functions |
| `VoiceControls` | `voicecontrols.py` | class `Controls`, one method per call and engine event |
| `CodeEditor` | `codeeditor.py` | example table and enablement rule as functions; class `Editor` for its busy flag |
| `Debugger` | `debugger.py` | class `Session` for the page state; the command interpreter and narration as functions |
| `ErrorExplanation` | `errorexplaination.py` | functions |
| `Tutorials` | `tutorials.py` | functions |
| `Progress` | `progress.py` | a method with a loop for the language tally, a method for the achievements, functions for the rest |
| `Dashboard` | `dashoboard.py` | functions |
| `Settings` | `settings.py` | functions for defaulting and merging; class `Page` for the save flow |

External services are not modelled; their answers are method parameters, and what is sent
to them goes into ghost logs. These services are:
- the AI service;
- the session store;
- the profile store;
- the speech engines.

The analysis and save handlers are split at their first await. For example,
`Session.StartAnalysis` runs up to the service call and `Session.FinishAnalysis` runs once
it returns. Later awaits in the same handler are not split (see "## Left out"). This
makes the time in between observable: the analysing flag is set, and a second request can
be made. Each analysis in flight keeps the `userProfile` of the render in which it
started, because the rest of its handler reads that one. A `setTimeout` callback is its
own event (`NarrationTimerFires`, `ClearTimerFires`). Pending timers fire in the order they were set.

Where the component's intent and its code differ, the model follows the code:
- The code clears the explanation when an analysis starts, so after a failed analysis no
  explanation is shown.
- Switching language keeps the explanation.
- The analysis handler has no guard against an analysis already in flight. A voice
  "analyze" starts a second one (`Debugger.VoiceAnalyzeWhileAnalyzing`).
- The debugger's narration has no closing period.
- If the session store rejects the record after the explanation was set, the explanation
  stays and the failure message is shown as well.

## Model

| member | source | states |
|---|---|---|
| Text.Lower | debugger.py:49 | lower-casing keeps the length, maps each letter A-Z to its lower-case letter and keeps every other character, so no upper-case ASCII letter remains |
| Text.ContainsAt | debugger.py:51-56 | `Contains` (the model of `includes`) holds exactly when the text occurs at some position |
| Text.TrimEmptyIffBlank | debugger.py:72 | the trimmed code is empty exactly when every character is white space |
| Text.Prefix | dashoboard.py:237 | `slice(0, n)` gives the prefix of exactly n characters, or the whole text when it is shorter |
| VoiceControls.Requested | voicecontrols.py:21-32 | the utterances the engine may still play are those queued since the last cancel |
| VoiceControls.CancelThenSpeak | voicecontrols.py:21-26 | a cancel followed by one utterance leaves exactly that utterance requested |
| VoiceControls.LastRequestWins | voicecontrols.py:17-33 | after two speak requests only the second remains requested |
| VoiceControls.Controls.constructor | voicecontrols.py:12-14 | the controls start neither listening nor speaking, with no engine call made |
| VoiceControls.Controls.Speak | voicecontrols.py:17-33 | no engine call without voice or synthesis; otherwise cancel, then queue one utterance with the component's rate, pitch 1 and volume 0.8, leaving exactly that utterance requested; the speaking flag waits for the start event |
| VoiceControls.Controls.StopSpeaking | voicecontrols.py:35-38 | cancels the engine, clears the speaking flag and leaves nothing requested |
| VoiceControls.Controls.OnUtteranceStart | voicecontrols.py:28 | the start event sets the speaking flag |
| VoiceControls.Controls.OnUtteranceEnd | voicecontrols.py:29 | the end event clears the speaking flag |
| VoiceControls.Controls.OnUtteranceError | voicecontrols.py:30 | the error event clears the speaking flag |
| VoiceControls.Controls.StartListening | voicecontrols.py:78-82 | starts the engine only when one exists and no capture is active; the listening flag is untouched |
| VoiceControls.Controls.StopListening | voicecontrols.py:84-89 | stops the engine only while listening, and clears the flag at once |
| VoiceControls.Controls.OnRecognitionStart | voicecontrols.py:57-59 | the engine's start event sets the listening flag |
| VoiceControls.Controls.OnRecognitionResult | voicecontrols.py:61-65 | delivers the first alternative of the first result exactly once, then clears the flag; a result without one delivers nothing and changes nothing |
| VoiceControls.Controls.OnRecognitionError | voicecontrols.py:67-70 | clears the listening flag without a transcript |
| VoiceControls.Controls.OnRecognitionEnd | voicecontrols.py:72-74 | clears the listening flag without a transcript |
| VoiceControls.Controls.ClickMic | voicecontrols.py:105-109 | a disabled microphone button does nothing; an enabled one stops while listening and starts otherwise |
| VoiceControls.Controls.UnsupportedNoticeMeansSilence | voicecontrols.py:91-101 | while the unsupported notice shows, neither button is enabled, and nothing is listening, speaking or requested of the engine |
| VoiceControls.Controls.ClickSpeaker | voicecontrols.py:118-122 | the speaker button acts only while speaking with voice on, and then cancels the engine, clears the speaking flag and leaves nothing requested |
| VoiceControls.ListeningCycle | voicecontrols.py:57-82 | start, the start event and a result deliver exactly one transcript and leave the controller idle |
| VoiceControls.OverlappingSpeech | voicecontrols.py:17-33 | two overlapping speak requests leave only the second requested and the controller idle |
| CodeEditor.ExamplesCoverLanguages | codeeditor.py:9-64 | the example table has exactly the five supported languages as keys, each with non-empty code |
| CodeEditor.ExampleFor | codeeditor.py:77 | the lookup is non-empty exactly for a supported language, and then gives its table entry |
| CodeEditor.AnalyzeEnabledIff | codeeditor.py:178 | the button is enabled exactly when no analysis is running and the code is not all white space |
| CodeEditor.Editor.constructor | codeeditor.py:73 | the editor starts idle |
| CodeEditor.Editor.ClickAnalyze | codeeditor.py:80-82 | a click fires the analysis exactly when the button is enabled, and the editor is busy while it runs |
| CodeEditor.Editor.AnalyzeSettled | codeeditor.py:83 | the editor is idle again once the awaited analysis returns |
| Debugger.InitialCodeIsPythonExample | debugger.py:27-34 | the page starts on the python example of the editor's table |
| Debugger.Narration | debugger.py:66 | the narration opens with "I found a " and ends with the solution text itself, or with "undefined" when the solution is missing |
| Debugger.NarrationNoTrailingPeriod | debugger.py:66 | the narration's last character is the solution's last character, so no period is added |
| Debugger.Interpret | debugger.py:47-62 | dictation carries the transcript as spoken; "explain again" is chosen only with an explanation; a transcript is dictated exactly when it names no analyze, help or clear keyword and is not an "explain again" with an explanation shown |
| Debugger.AnalyzeTakesPrecedence | debugger.py:51-52 | a transcript saying "analyze" or "help" analyses, whatever else it says |
| Debugger.ClearTakesPrecedence | debugger.py:53-55 | otherwise a transcript saying "clear" clears |
| Debugger.ExplainAgainNeedsExplanation | debugger.py:56-61 | otherwise "explain again" repeats the narration exactly when there is an explanation, and is dictated when there is none; with an explanation, a transcript without any keyword is dictated |
| Debugger.InterpretIgnoresCase | debugger.py:49 | a transcript and its lower-cased form select the same command |
| Debugger.HelpAndClearAnalyses | debugger.py:51-55 | "HELP clear" analyses |
| Debugger.StartingLanguage | debugger.py:41 | the profile's preferred language, or python when it is missing or empty |
| Debugger.SkillLevel | debugger.py:83 | the profile's programming level when one is stored and non-empty, otherwise beginner |
| Debugger.NextTotal | debugger.py:144 | the value written is the stored session count, missing counting as 0, plus one |
| Debugger.CountSession | debugger.py:142-146 | the profile after the write differs only in its count, which is one higher |
| Debugger.CounterWrites | debugger.py:142-146 | with the profile kept current, n analyses of one visit write n values, the i-th being the loaded count plus i + 1 |
| Debugger.CounterWritesAsWritten | debugger.py:142-146 | as written, every analysis of one visit writes the loaded count plus one |
| Debugger.SecondAnalysisNotCounted | debugger.py:142-146 | two analyses in one visit: as written the second write repeats the first, where the corrected count goes up by two |
| Debugger.DeferredNarrationAsWritten | debugger.py:149-152 | as written, the deferred narration speaks the narration of the explanation shown when the analysis started, and nothing when there was none |
| Debugger.FirstAnalysisNotNarrated | debugger.py:149-152 | as written, the first analysis of a visit is never read aloud |
| Debugger.StaleNarration | debugger.py:149-152 | as written, a later analysis reads aloud the previous explanation instead of the new one |
| Debugger.Session.constructor | debugger.py:16-35 | the page starts with the example code, python, no explanation, not analysing and no error |
| Debugger.Session.LoadUserProfile | debugger.py:37-45 | a loaded profile is kept and sets the language; a failed load changes nothing; the code is kept |
| Debugger.Session.EditCode | codeeditor.py:165 | typing in the editor replaces the code |
| Debugger.Session.ChangeLanguage | codeeditor.py:75-78 | sets the language and the code to its example (empty for an unknown language); the explanation is kept |
| Debugger.Session.ResetCode | codeeditor.py:90-92 | the code returns to the current language's example; the language is kept |
| Debugger.Session.SpeakExplanation | debugger.py:64-69 | the narration of the current explanation is spoken exactly when there is one and the voice controls are mounted |
| Debugger.Session.StartAnalysis | debugger.py:71-79 | blank code only sets the validation message, with no service call and the flag unchanged; otherwise the page analyses, clears error and explanation, and makes exactly one service call with the code, language and skill level |
| Debugger.Session.FinishAnalysis | debugger.py:101-160 | a failure shows the failure message and writes nothing; a response becomes the explanation and appends exactly one session record with the code, language, voice use and concepts (or shows the failure message if the store rejects it); voice use, the count guard and the narration guard read the profile of the render in which the analysis started: the count goes up by one when a profile was loaded then, and the narration of this response waits on the timer when voice was on then and the voice controls are mounted now; the page always stops analysing |
| Debugger.ProfileLoadedMidAnalysis | debugger.py:132-152 | a profile loaded while the service call is out is not read by that analysis: the record shows no voice use, no count is written and nothing is narrated |
| Debugger.Session.NarrationTimerFires | debugger.py:150-152 | the oldest pending narration is spoken if the voice controls are mounted |
| Debugger.Session.HandleVoiceInput | debugger.py:47-62 | carries out the interpreted command: analysis as in StartAnalysis; clear empties code and explanation; explain again narrates; dictation appends a line holding the transcript as spoken, and nothing else changes |
| Debugger.Session.RateExplanation | debugger.py:163-182 | with an explanation, the newest stored session gets the rating and no other record changes; without one, or when the store fails, nothing changes |
| Debugger.AnalyzeToCompletion | debugger.py:71-160 | corrected page: one analysis end to end: blank code makes no call; otherwise exactly one call; afterwards the page is idle, a failure leaves no explanation, a response is the explanation and is stored once when the store accepts it, and its narration is queued when voice is on |
| Debugger.VoiceAnalyzeWhileAnalyzing | debugger.py:51-52 | a voice "analyze" during an analysis makes a second service call |
| Debugger.ClickGetHelp | codeeditor.py:176-178 | a disabled button sends nothing; an enabled one makes one call and leaves editor and page idle |
| Debugger.NameErrorScenario | debugger.py:129-153 | corrected page: a python NameError answer with voice on: it is shown, one python session is stored with voice used, and its narration is spoken |
| ErrorExplanation.CopyText | errorexplaination.py:32-38 | nothing is copied without an explanation; otherwise the labelled error type, explanation and solution separated by blank lines |
| ErrorExplanation.ListenUtterance | errorexplaination.py:48-53 | the Listen button speaks the debugger's narration at rate 1.0, pitch 1 and volume 0.9 |
| ErrorExplanation.ListenCalls | errorexplaination.py:40-63 | no engine call without an explanation or an engine; otherwise a cancel followed by the utterance of that explanation |
| ErrorExplanation.ListenPreempts | errorexplaination.py:46-60 | after Listen only the narration remains requested, whatever was requested before |
| ErrorExplanation.AlertMeansSilence | errorexplaination.py:61-62 | the unsupported alert appears exactly when there is an explanation but no engine, and then nothing is spoken |
| ErrorExplanation.Render | errorexplaination.py:66-171 | loading wins over everything; no explanation renders nothing; the badge falls back to "Code Issue Detected" for a missing or empty error type; learning points appear exactly for a non-empty list |
| ErrorExplanation.RatingFor | errorexplaination.py:182-191 | thumbs up rates 5 and thumbs down 2, so the rating lies between 1 and 5 and is above the midpoint exactly for thumbs up |
| ErrorExplanation.ClickRating | errorexplaination.py:182-191 | a thumbs click on the debugger page stores 5 or 2 on the newest session |
| Tutorials.FindProgress | tutorials.py:56-58 | none exactly when no record matches; otherwise the earliest matching record |
| Tutorials.RoundedPercent | tutorials.py:63 | the nearest whole percentage with halves rounded up; at most 100 when the part does not exceed the whole |
| Tutorials.CompletionPercentage | tutorials.py:60-64 | 0 with no tutorials, otherwise the rounded share of completed records over the tutorial count |
| Tutorials.PercentageCountsRecords | tutorials.py:62-63 | records rather than tutorials are counted: two completed records for one tutorial give 200 |
| Tutorials.FilterTutorials | tutorials.py:66-73 | exactly the tutorials matching search, language and level, each as often as in the catalogue, in catalogue order |
| Tutorials.FilterAllIsIdentity | tutorials.py:66-73 | an empty search with both filters on "all" lists every tutorial |
| Tutorials.FilterIdempotent | tutorials.py:66-73 | filtering twice with the same settings equals filtering once |
| Tutorials.DifficultyColor | tutorials.py:75-82 | gray exactly for an unknown level |
| Tutorials.LanguageColor | tutorials.py:84-93 | gray exactly for an unsupported language |
| Tutorials.DifficultyColorsDistinct | tutorials.py:75-82 | the three levels get three different colours |
| Tutorials.ButtonLabel | tutorials.py:199-287 | Review exactly when completed, Continue exactly when in progress, Start otherwise |
| Tutorials.StatusText | tutorials.py:270-280 | "Completed" exactly when completed, otherwise "Ready to learn" |
| Tutorials.StatusAgreesWithLabel | tutorials.py:270-287 | the status line and the button agree on completion; an in-progress tutorial is still "Ready to learn" |
| Tutorials.MasteryBar | tutorials.py:238-246 | the bar appears exactly for an in-progress tutorial with a non-zero score, showing that score; a score of 0 renders the number 0 instead; nothing otherwise |
| Tutorials.MasteryBarOnlyWhileContinuing | tutorials.py:238-287 | whatever the mastery area shows sits beside a Continue button and the "Ready to learn" status |
| Tutorials.ConceptSection | tutorials.py:250-263 | no section for a missing or empty list; otherwise at most three leading concepts, with a "+n more" badge exactly when there are more than three |
| Progress.CountLanguagePositions | progress.py:80-82 | the number of sessions counted for a language is the number of positions holding a session in that language |
| Progress.FirstOccurrencesFacts | progress.py:79-84 | the dictionary's keys are duplicate-free and are exactly the languages that occur |
| Progress.SessionLanguagesCounted | progress.py:80-82 | every session's language has a positive count |
| Progress.TallySum | progress.py:79-84 | the per-language counts add up to the number of sessions |
| Progress.TallyFacts | progress.py:79-85 | each language appears once, with its positive session count, and every session's language appears |
| Progress.SortByCountFacts | progress.py:86 | the sort orders by non-increasing count, permutes its input, keeps the total and keeps ties in input order |
| Progress.LanguageStats | progress.py:78-87 | the first-occurrence tally of the loop, stably sorted by count: sorted by non-increasing count; a permutation of the tally with ties in first-occurrence order; each language once with its session count; every session's language present; counts summing to the number of sessions |
| Progress.TwoStatusesBounded | progress.py:90-91 | records with two different statuses are together at most the number of records |
| Progress.GetCompletionStats | progress.py:89-101 | completed, in progress and not started add up to the tutorial count; the first two cannot exceed the records; not started is negative exactly when they exceed the tutorials; the rate rounds as on the tutorials page |
| Progress.TotalTimeAdditive | progress.py:103-107 | total time is additive over sessions and tutorial records |
| Progress.MissingTimeCountsZero | progress.py:104-105 | a missing duration or time spent adds nothing |
| Progress.EarnedAmong | progress.py:109-126 | an achievement is listed exactly when its threshold is met, and there are at most eight |
| Progress.GetAchievements | progress.py:109-126 | the pushes produce the earned achievements in catalogue order |
| Progress.AchievementListed | progress.py:116-123 | each achievement is listed exactly when its own threshold holds |
| Progress.AchievementsMonotone | progress.py:109-126 | raising any count never removes an achievement |
| Progress.TiersNest | progress.py:116-122 | a higher tier of a track implies the lower ones |
| Progress.AchievementsInCatalogueOrder | progress.py:116-123 | the achievements appear in catalogue order |
| Dashboard.StreakStatus | dashoboard.py:58-64 | On Fire from 7 days, Great Momentum from 3, Getting Started from 1, else Ready to Learn; a missing streak is 0 |
| Dashboard.StreakStatusMonotone | dashoboard.py:58-64 | a longer streak never shows a lower tier |
| Dashboard.StreakTiersDistinct | dashoboard.py:60-63 | the four badges differ, so the tier can be read back from the badge |
| Dashboard.LevelProgress | dashoboard.py:66-71 | Advanced at 100 from 50 sessions; Intermediate measured against 50 from 20; Beginner measured against 20 below that |
| Dashboard.LevelProgressBounded | dashoboard.py:66-71 | for a non-negative count the bar lies between 0 and 100 |
| Dashboard.ProgressDropsAtLevelChange | dashoboard.py:69-70 | 19 sessions show Beginner at 95, 20 show Intermediate at 40 |
| Dashboard.Preview | dashoboard.py:237 | the first 60 characters of the explanation, or the fallback text for none, followed by "..." |
| Settings.LoadSettings | settings.py:41-46 | each setting is the stored value whenever one is stored (even false or empty), else its default |
| Settings.EmptyLanguageReadTwoWays | settings.py:44 | an empty stored language shows as empty here, while the debugger starts in python |
| Settings.StartingLanguageMatchesSettings | settings.py:41-46 | apart from an empty stored language, the debugger starts in the language the settings page shows, python when none is stored |
| Settings.Merge | settings.py:62 | the four settings replace the profile's; email, count and streak are kept |
| Settings.LoadAfterMerge | settings.py:41-62 | loading the merged profile gives back exactly the saved settings |
| Settings.MergeIdempotent | settings.py:62 | merging the same settings twice equals merging once |
| Settings.MergeLoadedKeepsStored | settings.py:41-62 | merging what was loaded from a complete profile gives that profile back |
| Settings.MessageStyles | settings.py:115 | the success message gets the success style and the failure message does not |
| Settings.Page.constructor | settings.py:21-29 | the page starts with the default settings, no profile, not saving and no message |
| Settings.Page.Load | settings.py:36-51 | a loaded profile sets the settings by the defaulting rule; a failed load changes nothing |
| Settings.Page.Edit | settings.py:138-255 | a form control replaces the settings being edited |
| Settings.Page.StartSave | settings.py:53-58 | saving starts, the message is cleared and the current settings are sent once |
| Settings.Page.FinishSave | settings.py:58-71 | success confirms, merges the sent settings into the current profile and starts a clearing timer; failure shows the failure message and keeps the profile; saving ends either way |
| Settings.Page.ClearTimerFires | settings.py:65 | the oldest clearing timer empties the message |
| Settings.SaveToCompletion | settings.py:53-72 | one save end to end: exactly one write, and on success the profile loads back as the edited settings |
| Settings.EarlierTimerClearsLaterFailure | settings.py:65-68 | a successful save's timer also clears the failure message of a save made soon after |
| Settings.TestUtterance | settings.py:77-82 | the speech test uses the settings' rate with the voice controls' pitch and volume |
| Settings.TestSpeechCalls | settings.py:74-85 | nothing without an engine; otherwise a cancel followed by the test utterance at the chosen rate |
| Settings.TestSpeechPreempts | settings.py:76-83 | after the test only the test utterance remains requested |

## Left out

- Debugger.Session.FinishAnalysis: the response, the `DebuggingSession.create` await (debugger.py:132), the `User.updateMyUserData` await (debugger.py:143) and the timer form one event, so no other event can fall between them. The model therefore does not reach states where the new explanation is shown while `isAnalyzing` is still true and its record is not yet stored. With two analyses in flight, one analysis's tail can clear the flag while the other's explanation is shown without its record. A thumbs click then rates the previous record. The same holds for the two awaits of `Session.RateExplanation` (debugger.py:168, 175), which also run as one event.
- The result card's paragraphs that show the explanation and the solution are not modelled; `ErrorExplanation.Panel` holds only the badge and whether learning points show. A missing text field renders as nothing there, while the modelled template literals (`Debugger.Narration`, `ErrorExplanation.CopyText`) show it as "undefined".
- Rendering, CSS classes, icons, `scrollIntoView`, the clipboard write and `alert` are left out. Only the decisions that choose what is rendered, copied or alerted are modelled.
- The AI service is left out: its prompt and schema (debugger.py:82-127) are a foreign service. Its answer is a parameter whose text fields may each be missing.
- The session store, the profile store, `User.me`, `Tutorial.list` and `UserProgress.filter` are storage calls. Their results and outcomes are parameters, and the writes are ghost logs.
- The store's own choices are not modelled: the page keeps only the 50 newest sessions, and the store chooses which session is "most recent" when rating.
- `Debugger.Session.RateExplanation` takes the newest record of the ghost log as that session.
- The browser speech engines are not modelled. Only the calls made on them and the events they send back are; whether an engine exists is a constant.
- The voice controls' "supported" flag is taken as known from the start: the effect that discovers it is not modelled.
- Re-creating the recognition object on every render is not modelled.
- `setTimeout` delays are not modelled. Each deferred action is an event, and pending timers fire in the order they were set.
- `getWeeklyActivity` (progress.py:58-76) depends on the clock and date formatting.
- Floating point is not modelled.
  - `Math.round(k / n * 100)` is computed exactly over the integers.
  - The level progress is computed exactly over the reals.
  - The speech rate is an uninterpreted real.
  - The text of the rate in the speech test is a parameter, as JavaScript would render the number.
- `Text.Lower` maps only ASCII letters; other letters are unchanged.
- `Text.Prefix` counts characters, while JavaScript's `slice` and `length` count UTF-16 code units: a preview holding characters outside the Basic Multilingual Plane keeps more of them here than in the browser.
- `Text.IsWhitespace` covers ASCII white space, the no-break space and the byte-order mark, not every Unicode space.
- `Progress.LanguageStats` assumes that no language name looks like an array index. `Object.entries` lists such keys first, in numeric order.
- `Settings.Page.FinishSave` does not state the message style. `Settings.MessageStyles` states it.
- The settings page's save button is not modelled. Saves are events without a guard, which allows every sequence of saves a guarded button (disabled while `isSaving`) allows, and more.
- The corrected debugger narrates the response itself; see Findings.
- The as-written behaviour, which narrates the explanation from when the analysis started, is modelled by `Debugger.DeferredNarrationAsWritten` only. It is not modelled inside `Debugger.Session`.
- The corrected debugger also keeps its profile's session count current; see Findings.

## Findings

| source | as written | input that shows it | evidently intended | confidence | as-written member | corrected member |
|---|---|---|---|---|---|---|
| debugger.py:149-152 | the 500 ms timer calls the `speakExplanation` closure of the render in which the analysis started, which reads the explanation shown when Analyze was pressed; the `setExplanation(null)` at debugger.py:79 does not reach that closure | voice on, first analysis of a visit: nothing is spoken; a later analysis reads out the previous explanation | read aloud the explanation just received | high (not executed) | Debugger.DeferredNarrationAsWritten, Debugger.FirstAnalysisNotNarrated, Debugger.StaleNarration | Debugger.Session.FinishAnalysis |
| debugger.py:142-146 | the new count is computed from the page's `userProfile`, which is never refreshed after the write | two successful analyses in one visit with a stored count of 4: both write 5 | each analysis raises the stored count by one | high (not executed) | Debugger.CounterWritesAsWritten, Debugger.SecondAnalysisNotCounted | Debugger.CounterWrites, Debugger.Session.FinishAnalysis |

=== FILE: code_editor.dfy ===
/** The code editor component: the canned example per language, the enablement rule of the
    "Get Help" button and the editor's own "analyzing" flag. Its language switch and reset
    act on the debugger's state and are modelled there (Debugger.Session). */
module CodeEditor {
  import opened Text

  const PythonExample: string :=
@"# Example Python code with an error
def greet_user(name):
    print(""Hello "" + name)
    return name.upper()

# This will cause an error
result = greet_user()  # Missing required argument
print(result)"

  const JavaScriptExample: string :=
@"// Example JavaScript code with an error
function calculateArea(radius) {
    return 3.14 * radius * radius;
}

// This will cause an error
let area = calculateArea();  // Missing required argument
console.log(""Area is: "" + area);"

  const JavaExample: string :=
@"// Example Java code with an error
public class Main {
    public static void main(String[] args) {
        String name;
        System.out.println(""Hello "" + name);  // Variable not initialized
    }
}"

  const CppExample: string :=
@"// Example C++ code with an error
#include <iostream>
using namespace std;

int main() {
    int numbers[5] = {1, 2, 3, 4, 5};
    cout << numbers[10] << endl;  // Array index out of bounds
    return 0;
}"

  const HtmlCssExample: string :=
@"<!-- Example HTML/CSS with an error -->
<!DOCTYPE html>
<html>
<head>
    <style>
        .container {
            color: blue;
            background-color: #fff
            /* Missing semicolon above */
        }
    </style>
</head>
<body>
    <div class=""container"">
        <p>Hello World!</p>
    </div>
</body>
</html>"

  /** `LANGUAGE_EXAMPLES`. */
  const LanguageExamples: map<string, string> := map[
    "python" := PythonExample,
    "javascript" := JavaScriptExample,
    "java" := JavaExample,
    "cpp" := CppExample,
    "html_css" := HtmlCssExample]

  const Languages: set<string> := {"python", "javascript", "java", "cpp", "html_css"}

  /** The table has exactly the five languages as keys and no empty example. */
  lemma ExamplesCoverLanguages()
    ensures LanguageExamples.Keys == Languages
    ensures forall lang :: lang in LanguageExamples ==> LanguageExamples[lang] != ""
  {
  }

  /** `LANGUAGE_EXAMPLES[language] || ''`: the example, or nothing for an unknown key. */
  function ExampleFor(language: string): (code: string)
    ensures code != "" <==> language in Languages
    ensures language in Languages ==> code == LanguageExamples[language]
  {
    if language in LanguageExamples && LanguageExamples[language] != "" then LanguageExamples[language] else ""
  }

  /** The "Get Help" button is enabled: the editor is not analysing and the trimmed code is
      not empty. */
  predicate AnalyzeEnabled(isAnalyzing: bool, code: string) {
    !isAnalyzing && Trim(code) != ""
  }

  /** The button is enabled exactly when the editor is idle and the code has a character
      that is not white space. */
  lemma AnalyzeEnabledIff(isAnalyzing: bool, code: string)
    ensures AnalyzeEnabled(isAnalyzing, code) <==>
      !isAnalyzing && exists i :: 0 <= i < |code| && !IsWhitespace(code[i])
  {
    TrimEmptyIffBlank(code);
  }

  /** The editor's local `isAnalyzing` flag, set for as long as the parent's analysis
      handler is awaited. */
  class Editor {
    var isAnalyzing: bool

    constructor ()
      ensures !isAnalyzing
    {
      isAnalyzing := false;
    }

    /** A click on "Get Help". A disabled button ignores it; otherwise the flag is set and
        the parent's handler is awaited (`fired`). */
    method ClickAnalyze(code: string) returns (fired: bool)
      modifies this
      ensures fired == AnalyzeEnabled(old(isAnalyzing), code)
      ensures isAnalyzing == (old(isAnalyzing) || fired)
    {
      fired := AnalyzeEnabled(isAnalyzing, code);
      if fired {
        isAnalyzing := true;
      }
    }

    /** The awaited handler has returned. */
    method AnalyzeSettled()
      modifies this
      ensures !isAnalyzing
    {
      isAnalyzing := false;
    }
  }
}

=== FILE: dashboard.dfy ===
/** The dashboard: the learning-streak badge, the level and its progress bar, and the text
    previewing a recent session. */
module Dashboard {
  import opened Wrappers
  import opened Text
  import opened Entities

  datatype Badge = Badge(text: string, color: string)

  const OnFire := Badge("On Fire! \U{1F525}", "bg-red-100 text-red-800")
  const GreatMomentum := Badge("Great Momentum!", "bg-green-100 text-green-800")
  const GettingStarted := Badge("Getting Started", "bg-blue-100 text-blue-800")
  const ReadyToLearn := Badge("Ready to Learn", "bg-gray-100 text-gray-800")

  /** The tiers from lowest to highest. */
  const StreakTiers: seq<Badge> := [ReadyToLearn, GettingStarted, GreatMomentum, OnFire]

  /** `getStreakStatus`: the highest tier whose threshold (7, 3, 1 days) the streak meets;
      a missing streak counts as 0. */
  function StreakStatus(profile: Option<Profile>): (b: Badge)
    ensures b in StreakTiers
    ensures b == OnFire <==> LearningStreak(profile) >= 7
    ensures b == GreatMomentum <==> 3 <= LearningStreak(profile) < 7
    ensures b == GettingStarted <==> 1 <= LearningStreak(profile) < 3
    ensures b == ReadyToLearn <==> LearningStreak(profile) < 1
  {
    var streak := LearningStreak(profile);
    if streak >= 7 then OnFire
    else if streak >= 3 then GreatMomentum
    else if streak >= 1 then GettingStarted
    else ReadyToLearn
  }

  /** The position of a badge among the tiers. */
  function TierRank(b: Badge): nat {
    if b == OnFire then 3 else if b == GreatMomentum then 2 else if b == GettingStarted then 1 else 0
  }

  /** A longer streak never shows a lower tier. */
  lemma StreakStatusMonotone(p: Option<Profile>, q: Option<Profile>)
    requires LearningStreak(p) <= LearningStreak(q)
    ensures TierRank(StreakStatus(p)) <= TierRank(StreakStatus(q))
  {
  }

  /** The four badges are different, so the tier can be read back from the badge. */
  lemma StreakTiersDistinct()
    ensures forall i, j :: 0 <= i < j < |StreakTiers| ==> StreakTiers[i] != StreakTiers[j]
    ensures forall i :: 0 <= i < |StreakTiers| ==> TierRank(StreakTiers[i]) == i
  {
    assert OnFire.text[0] == 'O' && GreatMomentum.text[0] == 'G' && GettingStarted.text[0] == 'G';
    assert GreatMomentum.text[1] == 'r' && GettingStarted.text[1] == 'e';
    assert ReadyToLearn.text[0] == 'R';
  }

  datatype Level = Level(name: string, progress: real)

  /** `getLevelProgress`: Advanced at 50 sessions or more, Intermediate from 20 with progress
      measured against 50, Beginner below with progress measured against 20; a missing count
      is 0. Computed exactly rather than in floating point. */
  function LevelProgress(profile: Option<Profile>): (l: Level)
    ensures var total := TotalSessions(profile);
      && (l.name == "Advanced" <==> total >= 50)
      && (l.name == "Intermediate" <==> 20 <= total < 50)
      && (l.name == "Beginner" <==> total < 20)
      && (total >= 50 ==> l.progress == 100.0)
      && (20 <= total < 50 ==> l.progress * 50.0 == total as real * 100.0)
      && (total < 20 ==> l.progress * 20.0 == total as real * 100.0)
  {
    var total := TotalSessions(profile);
    if total >= 50 then Level("Advanced", 100.0)
    else if total >= 20 then Level("Intermediate", total as real / 50.0 * 100.0)
    else Level("Beginner", total as real / 20.0 * 100.0)
  }

  /** For a non-negative count the bar stays within 0 to 100. */
  lemma LevelProgressBounded(profile: Option<Profile>)
    requires TotalSessions(profile) >= 0
    ensures 0.0 <= LevelProgress(profile).progress <= 100.0
  {
  }

  /** Reaching the next level resets the bar: 19 sessions show Beginner at 95, 20 show
      Intermediate at 40. */
  lemma ProgressDropsAtLevelChange(p: Profile)
    ensures LevelProgress(Some(p.(totalSessions := Some(19)))) == Level("Beginner", 95.0)
    ensures LevelProgress(Some(p.(totalSessions := Some(20)))) == Level("Intermediate", 40.0)
  {
  }

  const PreviewLength := 60
  const PreviewFallback := "Debugging session completed"

  /** The preview of a recent session: the first 60 characters of its explanation, or a
      fixed text when it has none (or an empty one), followed by "...". */
  function Preview(session: SessionRecord): (t: string)
    ensures |t| >= 3 && t[|t| - 3..] == "..."
    ensures var e := session.explanationProvided;
      if e.Some? && e.value != "" then
        t[..|t| - 3] <= e.value && |t| - 3 == (if |e.value| < PreviewLength then |e.value| else PreviewLength)
      else t[..|t| - 3] == PreviewFallback
  {
    var e := session.explanationProvided;
    var head := if e.Some? && Prefix(e.value, PreviewLength) != "" then Prefix(e.value, PreviewLength) else PreviewFallback;
    head + "..."
  }
}

=== FILE: debugger.dfy ===
/** The voice-driven debugger page: the session state (code, language, explanation,
    analysing flag, error), the voice-command interpreter and the analysis pipeline.
    The analysis service, the session store and the profile store are outside the model:
    their answers are parameters and what is sent to them is kept in ghost logs. The
    asynchronous handler `handleAnalyzeCode` is split at its service call into
    StartAnalysis and FinishAnalysis; the 500 ms narration timer is its own event. */
module Debugger {
  import opened Wrappers
  import opened Text
  import opened Entities
  import CodeEditor

  /** The code the page shows when it mounts. */
  const InitialCode: string :=
@"# Example Python code with an error
def greet_user(name):
    print(""Hello "" + name)
    return name.upper()

# This will cause an error
result = greet_user()  # Missing required argument
print(result)"

  /** The page starts on the python example of the editor's table. */
  lemma InitialCodeIsPythonExample()
    ensures InitialCode == CodeEditor.ExampleFor("python")
    ensures InitialCode != ""
  {
  }

  // ---------------------------------------------------------------------------
  // Narration

  const NarrationOpening := "I found a "

  /** The text `speakExplanation` speaks. Nothing is added after the solution: the
      narration ends with the solution text itself, without a closing period. */
  function Narration(e: Explanation): (t: string)
    ensures NarrationOpening <= t
    ensures var fix := Interpolated(e.solution); |fix| <= |t| && t[|t| - |fix|..] == fix
    ensures e.solution.None? ==> |t| >= 9 && t[|t| - 9..] == "undefined"
  {
    NarrationOpening + Interpolated(e.errorType) + ". Here is what's wrong: " + Interpolated(e.simpleExplanation)
    + ". And here is how to fix it: " + Interpolated(e.solution)
  }

  /** The narration ends with a period only when the solution itself does. */
  lemma NarrationNoTrailingPeriod(e: Explanation)
    requires Interpolated(e.solution) != []
    ensures var fix := Interpolated(e.solution); Narration(e)[|Narration(e)| - 1] == fix[|fix| - 1]
  {
    var t := Narration(e);
    var fix := Interpolated(e.solution);
    assert t[|t| - |fix|..] == fix;
    assert t[|t| - 1] == t[|t| - |fix|..][|fix| - 1];
  }

  // ---------------------------------------------------------------------------
  // Voice commands

  datatype Command = Analyze | Clear | ExplainAgain | Dictate(line: string)

  /** The command `handleVoiceInput` carries out for a transcript: keywords are matched in
      the lower-cased transcript, "analyze"/"help" before "clear" before "explain again"
      (which needs an explanation); anything else is dictated as a line of code. */
  function Interpret(transcript: string, hasExplanation: bool): (c: Command)
    ensures c.Dictate? ==> c.line == transcript
    ensures c == ExplainAgain ==> hasExplanation
    ensures var lower := Lower(transcript);
      c.Dictate? <==>
        && !Contains(lower, "analyze") && !Contains(lower, "help") && !Contains(lower, "clear")
        && !(hasExplanation && Contains(lower, "explain again"))
  {
    var lower := Lower(transcript);
    if Contains(lower, "analyze") || Contains(lower, "help") then Analyze
    else if Contains(lower, "clear") then Clear
    else if Contains(lower, "explain again") && hasExplanation then ExplainAgain
    else Dictate(transcript)
  }

  /** "analyze" or "help" always wins, whatever else the transcript says. */
  lemma AnalyzeTakesPrecedence(transcript: string, hasExplanation: bool)
    requires Contains(Lower(transcript), "analyze") || Contains(Lower(transcript), "help")
    ensures Interpret(transcript, hasExplanation) == Analyze
  {
  }

  /** Without "analyze"/"help", "clear" wins over "explain again" and dictation. */
  lemma ClearTakesPrecedence(transcript: string, hasExplanation: bool)
    requires !Contains(Lower(transcript), "analyze") && !Contains(Lower(transcript), "help")
    requires Contains(Lower(transcript), "clear")
    ensures Interpret(transcript, hasExplanation) == Clear
  {
  }

  /** "explain again" repeats the narration only when there is an explanation; without
      one the transcript is dictated, and with one any other transcript is dictated. */
  lemma ExplainAgainNeedsExplanation(transcript: string)
    requires !Contains(Lower(transcript), "analyze") && !Contains(Lower(transcript), "help")
    requires !Contains(Lower(transcript), "clear")
    ensures Interpret(transcript, true) == ExplainAgain <==> Contains(Lower(transcript), "explain again")
    ensures Interpret(transcript, false) == Dictate(transcript)
    ensures !Contains(Lower(transcript), "explain again") ==> Interpret(transcript, true) == Dictate(transcript)
  {
  }

  /** Matching ignores case: a transcript and its lower-cased form select the same
      command, except that dictation keeps the words as spoken. */
  lemma InterpretIgnoresCase(transcript: string, hasExplanation: bool)
    ensures Interpret(Lower(transcript), hasExplanation).Dictate? == Interpret(transcript, hasExplanation).Dictate?
    ensures !Interpret(transcript, hasExplanation).Dictate? ==>
      Interpret(Lower(transcript), hasExplanation) == Interpret(transcript, hasExplanation)
  {
    LowerIdempotent(transcript);
  }

  /** A spoken request for help that also says "clear" still analyses. */
  lemma HelpAndClearAnalyses()
    ensures Interpret("HELP clear", false) == Analyze
  {
    assert Lower("HELP clear") == "help clear";
  }

  // ---------------------------------------------------------------------------
  // Analysis pipeline

  /** One call to the analysis service: the code, language and skill level it is about. */
  datatype Request = Request(code: string, language: string, level: string)

  /** An analysis awaiting the service: its request, and the `userProfile` of the render in
      which it started, which is what the rest of that handler reads. */
  datatype Pending = Pending(req: Request, profileAtStart: Option<Profile>)

  /** The service's answer, or a thrown error. */
  datatype ServiceResult = Responded(response: Explanation) | Failed

  const EmptyCodeError := "Please enter some code to analyze"
  const AnalysisFailedError := "Failed to analyze code. Please try again."

  /** `user.preferred_language || 'python'`: an unset or empty preference means python. */
  function StartingLanguage(p: Profile): (lang: string)
    ensures lang != ""
    ensures p.preferredLanguage.Some? && p.preferredLanguage.value != "" ==> lang == p.preferredLanguage.value
    ensures p.preferredLanguage.None? || p.preferredLanguage.value == "" ==> lang == "python"
  {
    if p.preferredLanguage.Some? && p.preferredLanguage.value != "" then p.preferredLanguage.value else "python"
  }

  /** `userProfile?.programming_level || 'beginner'`. */
  function SkillLevel(p: Option<Profile>): (level: string)
    ensures level != ""
    ensures p.Some? && p.value.programmingLevel.Some? && p.value.programmingLevel.value != "" ==>
      level == p.value.programmingLevel.value
    ensures p.None? || p.value.programmingLevel.None? || p.value.programmingLevel.value == "" ==>
      level == "beginner"
  {
    if p.Some? && p.value.programmingLevel.Some? && p.value.programmingLevel.value != ""
    then p.value.programmingLevel.value else "beginner"
  }

  /** The record `DebuggingSession.create` receives after request `req` was answered with `r`. */
  function NewRecord(req: Request, r: Explanation, p: Option<Profile>): SessionRecord {
    SessionRecord(req.code, req.language, r.simpleExplanation, r.solution, VoiceOn(p),
                  r.learningPoints.GetOr([]), None, None)
  }

  /** The value written to `total_sessions`: the stored count (unset counts as 0) plus one. */
  function NextTotal(p: Profile): (n: int)
    ensures n == TotalSessions(Some(p)) + 1
  {
    p.totalSessions.GetOr(0) + 1
  }

  /** The page's profile after it has written that value: only the count changes. */
  function CountSession(p: Profile): (q: Profile)
    ensures TotalSessions(Some(q)) == TotalSessions(Some(p)) + 1
    ensures q.(totalSessions := p.totalSessions) == p
    ensures VoiceOn(Some(q)) == VoiceOn(Some(p))
  {
    p.(totalSessions := Some(NextTotal(p)))
  }

  /** The values written to `total_sessions` by `n` successful analyses in one visit when
      the page keeps its profile up to date: the i-th writes the loaded count plus i + 1. */
  function CounterWrites(p: Profile, n: nat): (w: seq<int>)
    ensures |w| == n
    ensures forall i :: 0 <= i < n ==> w[i] == TotalSessions(Some(p)) + i + 1
    decreases n
  {
    if n == 0 then []
    else
      var rest := CounterWrites(CountSession(p), n - 1);
      assert forall i :: 1 <= i < n ==> ([NextTotal(p)] + rest)[i] == rest[i - 1];
      [NextTotal(p)] + rest
  }

  /** As written: the page never refreshes its profile after writing, so every analysis of
      one visit writes the same value. */
  function CounterWritesAsWritten(p: Profile, n: nat): (w: seq<int>)
    ensures |w| == n
    ensures forall i :: 0 <= i < n ==> w[i] == TotalSessions(Some(p)) + 1
  {
    seq(n, i => NextTotal(p))
  }

  /** Two analyses in one visit: as written the count goes up by one, not two. */
  lemma SecondAnalysisNotCounted(p: Profile)
    ensures CounterWritesAsWritten(p, 2)[1] == TotalSessions(Some(p)) + 1
    ensures CounterWrites(p, 2)[1] == TotalSessions(Some(p)) + 2
  {
  }

  /** As written: the narration timer calls the `speakExplanation` of the render in which the
      analysis started, so it reads the explanation shown at that time, not the response. */
  function DeferredNarrationAsWritten(explanationAtStart: Option<Explanation>, response: Explanation): (t: Option<string>)
    ensures t.Some? <==> explanationAtStart.Some?
    ensures explanationAtStart.Some? ==> t == Some(Narration(explanationAtStart.value))
  {
    if explanationAtStart.Some? then Some(Narration(explanationAtStart.value)) else None
  }

  /** The first analysis of a visit is never read out, although voice is on. */
  lemma FirstAnalysisNotNarrated(response: Explanation)
    ensures DeferredNarrationAsWritten(None, response) != Some(Narration(response))
  {
  }

  /** A later analysis reads out the previous explanation instead of the new one. */
  lemma StaleNarration()
    ensures var before := Explanation(Some("TypeError"), Some("a"), Some("b"), None);
            var after := Explanation(Some("NameError"), Some("c"), Some("d"), None);
            DeferredNarrationAsWritten(Some(before), after) != Some(Narration(after))
  {
    var before := Explanation(Some("TypeError"), Some("a"), Some("b"), None);
    var after := Explanation(Some("NameError"), Some("c"), Some("d"), None);
    assert Narration(before)[10] == 'T';
    assert Narration(after)[10] == 'N';
  }

  class Session {
    var userProfile: Option<Profile>
    var code: string
    var language: string
    var explanation: Option<Explanation>
    var isAnalyzing: bool
    var error: Option<string>
    /** Narrations waiting on the 500 ms timer, in firing order. */
    var timers: seq<string>

    /** Analyses whose service call has not returned yet, oldest first. */
    var inFlight: seq<Pending>
    /** Every call made to the analysis service. */
    ghost var requests: seq<Request>
    /** The records created in the session store, oldest first. */
    ghost var sessions: seq<SessionRecord>
    /** The values written to the profile's `total_sessions`. */
    ghost var counterWrites: seq<int>
    /** The texts passed to the voice controls' `speak`. */
    ghost var narrations: seq<string>

    ghost predicate Valid()
      reads this
    {
      && (isAnalyzing ==> inFlight != [])
      && |sessions| + |inFlight| <= |requests|
      && |counterWrites| <= |sessions|
      && (counterWrites != [] ==>
            userProfile.Some? && TotalSessions(userProfile) == counterWrites[|counterWrites| - 1])
    }

    /** The page once its mount effect has set the example code. */
    constructor ()
      ensures Valid()
      ensures userProfile == None && code == InitialCode && language == "python"
      ensures explanation == None && !isAnalyzing && error == None && timers == []
      ensures inFlight == [] && requests == [] && sessions == [] && counterWrites == [] && narrations == []
    {
      userProfile := None;
      code := InitialCode;
      language := "python";
      explanation := None;
      isAnalyzing := false;
      error := None;
      timers := [];
      inFlight, requests, sessions, counterWrites, narrations := [], [], [], [], [];
    }

    /** `loadUserProfile`, run once on mount (`user` is None when `User.me` fails): keeps
        the profile and switches to its preferred language; the code is left as it is. */
    method LoadUserProfile(user: Option<Profile>)
      requires Valid() && userProfile.None?
      modifies this`userProfile, this`language
      ensures Valid()
      ensures user.Some? ==> userProfile == user && language == StartingLanguage(user.value)
      ensures user.None? ==> userProfile == old(userProfile) && language == old(language)
    {
      if user.Some? {
        userProfile := user;
        language := StartingLanguage(user.value);
      }
    }

    /** The editor's text area changes the code. */
    method EditCode(text: string)
      requires Valid()
      modifies this`code
      ensures Valid() && code == text
    {
      code := text;
    }

    /** The editor's `handleLanguageChange`: the language, then the code becomes that
        language's example ("" for an unknown one). The explanation is kept. */
    method ChangeLanguage(lang: string)
      requires Valid()
      modifies this`language, this`code
      ensures Valid()
      ensures language == lang && code == CodeEditor.ExampleFor(lang)
      ensures lang in CodeEditor.Languages <==> code != ""
    {
      language := lang;
      code := CodeEditor.ExampleFor(lang);
    }

    /** The editor's `resetCode`: back to the current language's example; the language stays. */
    method ResetCode()
      requires Valid()
      modifies this`code
      ensures Valid()
      ensures code == CodeEditor.ExampleFor(language)
    {
      code := CodeEditor.ExampleFor(language);
    }

    /** The voice controls (and so `voiceControlsRef.current`) are mounted only while the
        profile has voice enabled. */
    predicate VoiceMounted()
      reads this
    {
      VoiceOn(userProfile)
    }

    /** `speakExplanation`: narrates the current explanation through the voice controls. */
    method SpeakExplanation()
      modifies this`narrations
      ensures narrations ==
        if explanation.Some? && VoiceMounted() then old(narrations) + [Narration(explanation.value)]
        else old(narrations)
    {
      if explanation.Some? && VoiceMounted() {
        narrations := narrations + [Narration(explanation.value)];
      }
    }

    /** What `handleAnalyzeCode` does up to its service call. Blank code sets the
        validation message and stops there. Otherwise the page starts analysing, clears the
        error and the explanation, and calls the service once with the code, language and
        skill level; there is no guard against an analysis already in flight. */
    twostate predicate StartedAnalysis()
      reads this
    {
      && code == old(code) && language == old(language) && userProfile == old(userProfile)
      && sessions == old(sessions) && counterWrites == old(counterWrites)
      && narrations == old(narrations) && timers == old(timers)
      && if Trim(old(code)) == "" then
           && error == Some(EmptyCodeError)
           && isAnalyzing == old(isAnalyzing) && explanation == old(explanation)
           && requests == old(requests) && inFlight == old(inFlight)
         else
           var req := Request(old(code), old(language), SkillLevel(old(userProfile)));
           && isAnalyzing && error == None && explanation == None
           && requests == old(requests) + [req] && inFlight == old(inFlight) + [Pending(req, old(userProfile))]
    }

    method StartAnalysis() returns (started: bool)
      requires Valid()
      modifies this`isAnalyzing, this`error, this`explanation, this`requests, this`inFlight
      ensures Valid() && StartedAnalysis()
      ensures started <==> Trim(old(code)) != ""
    {
      if Trim(code) == "" {
        error := Some(EmptyCodeError);
        return false;
      }
      isAnalyzing := true;
      error := None;
      explanation := None;
      var req := Request(code, language, SkillLevel(userProfile));
      requests := requests + [req];
      inFlight := inFlight + [Pending(req, userProfile)];
      started := true;
    }

    /** What `handleAnalyzeCode` does once request `req` has been answered. A service
        failure sets the failure message and writes nothing. A response becomes the
        explanation; then one session record is created. If that fails, or if the count
        update fails, the failure message is shown and nothing later happens. Otherwise the
        profile's count goes up by one and, with voice enabled, the response's narration waits
        on the timer. */
    twostate predicate FinishedAnalysis(pending: Pending, result: ServiceResult, createOk: bool, updateOk: bool)
      reads this
    {
      var start := pending.profileAtStart;
      && code == old(code) && language == old(language)
      && requests == old(requests) && narrations == old(narrations)
      && match result
         case Failed =>
           && explanation == old(explanation) && error == Some(AnalysisFailedError)
           && sessions == old(sessions) && counterWrites == old(counterWrites)
           && userProfile == old(userProfile) && timers == old(timers)
         case Responded(r) =>
           && explanation == Some(r)
           && if !createOk then
                && error == Some(AnalysisFailedError) && sessions == old(sessions)
                && counterWrites == old(counterWrites) && userProfile == old(userProfile) && timers == old(timers)
              else
                && sessions == old(sessions) + [NewRecord(pending.req, r, start)]
                && if start.Some? && !updateOk then
                     && error == Some(AnalysisFailedError) && counterWrites == old(counterWrites)
                     && userProfile == old(userProfile) && timers == old(timers)
                   else
                     var counted := start.Some? && old(userProfile).Some?;
                     && error == old(error)
                     && counterWrites == old(counterWrites) + (if counted then [NextTotal(old(userProfile).value)] else [])
                     && userProfile == (if counted then Some(CountSession(old(userProfile).value)) else old(userProfile))
                     && timers == old(timers) + (if VoiceOn(start) && VoiceOn(userProfile) then [Narration(r)] else [])
    }

    /** The service has answered the k-th analysis in flight; `createOk` and `updateOk` say
        whether the session store and the profile store accepted their writes. The record's
        voice use, the count update and the narration timer are decided by the profile of
        the render in which the analysis started (a profile present then is still present,
        since it is loaded once); the count written is the current one, and
        the narration also needs the voice controls mounted now. In every case the page
        stops analysing. */
    method FinishAnalysis(k: nat, result: ServiceResult, createOk: bool, updateOk: bool)
      requires Valid() && k < |inFlight|
      modifies this`isAnalyzing, this`error, this`explanation, this`inFlight, this`sessions
      modifies this`counterWrites, this`userProfile, this`timers
      ensures Valid() && !isAnalyzing
      ensures inFlight == old(inFlight[..k] + inFlight[k + 1..])
      ensures FinishedAnalysis(old(inFlight[k]), result, createOk, updateOk)
    {
      var pending := inFlight[k];
      var start := pending.profileAtStart;
      inFlight := inFlight[..k] + inFlight[k + 1..];
      isAnalyzing := false;
      match result {
        case Failed =>
          error := Some(AnalysisFailedError);
        case Responded(r) =>
          explanation := Some(r);
          if !createOk {
            error := Some(AnalysisFailedError);
          } else {
            sessions := sessions + [NewRecord(pending.req, r, start)];
            if start.Some? && !updateOk {
              error := Some(AnalysisFailedError);
            } else {
              CountAndSchedule(start, r);
            }
          }
      }
    }

    /** The tail of a successful analysis: the count goes up when a profile was loaded at
        the start, and the narration waits on the timer when voice was on then and the voice
        controls are mounted now. */
    method CountAndSchedule(start: Option<Profile>, r: Explanation)
      requires Valid() && |counterWrites| < |sessions|
      modifies this`counterWrites, this`userProfile, this`timers
      ensures Valid()
      ensures var counted := start.Some? && old(userProfile).Some?;
        && counterWrites == old(counterWrites) + (if counted then [NextTotal(old(userProfile).value)] else [])
        && userProfile == (if counted then Some(CountSession(old(userProfile).value)) else old(userProfile))
        && timers == old(timers) + (if VoiceOn(start) && VoiceOn(userProfile) then [Narration(r)] else [])
    {
      if start.Some? && userProfile.Some? {
        counterWrites := counterWrites + [NextTotal(userProfile.value)];
        userProfile := Some(CountSession(userProfile.value));
      }
      if VoiceOn(start) && VoiceMounted() {
        timers := timers + [Narration(r)];
      }
    }

    /** The oldest narration timer fires and speaks its text if the voice controls are
        mounted. */
    method NarrationTimerFires()
      requires Valid() && timers != []
      modifies this`timers, this`narrations
      ensures Valid()
      ensures timers == old(timers[1..])
      ensures narrations == old(narrations) + (if VoiceMounted() then [old(timers[0])] else [])
    {
      if VoiceMounted() {
        narrations := narrations + [timers[0]];
      }
      timers := timers[1..];
    }

    /** `handleVoiceInput`: carries out the command the transcript stands for. */
    method HandleVoiceInput(transcript: string) returns (command: Command)
      requires Valid()
      modifies this`code, this`explanation, this`narrations, this`isAnalyzing, this`error
      modifies this`requests, this`inFlight
      ensures Valid()
      ensures command == Interpret(transcript, old(explanation).Some?)
      ensures command == Analyze ==> StartedAnalysis()
      ensures command != Analyze ==>
        isAnalyzing == old(isAnalyzing) && error == old(error)
        && requests == old(requests) && inFlight == old(inFlight)
      ensures command == Clear ==> code == "" && explanation == None && narrations == old(narrations)
      ensures command == ExplainAgain ==>
        code == old(code) && explanation == old(explanation)
        && narrations == old(narrations) + (if VoiceMounted() then [Narration(old(explanation).value)] else [])
      ensures command.Dictate? ==>
        code == old(code) + "\n" + transcript && explanation == old(explanation) && narrations == old(narrations)
    {
      command := Interpret(transcript, explanation.Some?);
      match command {
        case Analyze =>
          var _ := StartAnalysis();
        case Clear =>
          code := "";
          explanation := None;
        case ExplainAgain =>
          SpeakExplanation();
        case Dictate(line) =>
          code := code + "\n" + line;
      }
    }

    /** `handleRateExplanation`: with an explanation shown, the newest stored session gets
        the rating (`storeOk` is false when the store call fails; the error is only logged). */
    method RateExplanation(rating: int, storeOk: bool)
      requires Valid()
      modifies this`sessions
      ensures Valid()
      ensures explanation.None? || !storeOk || old(sessions) == [] ==> sessions == old(sessions)
      ensures explanation.Some? && storeOk && old(sessions) != [] ==>
        var n := |old(sessions)|;
        sessions == old(sessions)[..n - 1] + [old(sessions)[n - 1].(userSatisfaction := Some(rating))]
    {
      if explanation.Some? && storeOk && sessions != [] {
        var n := |sessions|;
        sessions := sessions[..n - 1] + [sessions[n - 1].(userSatisfaction := Some(rating))];
      }
    }
  }

  /** One analysis run to completion with nothing else in flight: blank code is refused
      without a service call; otherwise exactly one call is made, the page ends idle, and
      after a failure no explanation is shown (it was cleared when the analysis started). */
  method AnalyzeToCompletion(s: Session, result: ServiceResult, createOk: bool, updateOk: bool) returns (started: bool)
    requires s.Valid() && s.inFlight == []
    modifies s
    ensures s.Valid() && !s.isAnalyzing && s.inFlight == []
    ensures started <==> Trim(old(s.code)) != ""
    ensures !started ==>
      s.error == Some(EmptyCodeError) && s.requests == old(s.requests) && s.explanation == old(s.explanation)
    ensures started ==>
      s.requests == old(s.requests) + [Request(old(s.code), old(s.language), SkillLevel(old(s.userProfile)))]
    ensures started && result.Failed? ==> s.explanation == None && s.error == Some(AnalysisFailedError)
    ensures started && result.Responded? ==> s.explanation == Some(result.response)
    ensures started && result.Responded? && createOk ==>
      s.sessions == old(s.sessions) + [NewRecord(s.requests[|s.requests| - 1], result.response, old(s.userProfile))]
    ensures started && result.Responded? && createOk && (old(s.userProfile).None? || updateOk) ==>
      s.timers == old(s.timers) + (if VoiceOn(old(s.userProfile)) then [Narration(result.response)] else [])
    ensures VoiceOn(s.userProfile) == VoiceOn(old(s.userProfile)) && s.narrations == old(s.narrations)
  {
    started := s.StartAnalysis();
    if started {
      s.FinishAnalysis(0, result, createOk, updateOk);
    }
  }

  /** A voice "analyze" while an analysis is in flight is not refused: a second request goes
      to the service. */
  method VoiceAnalyzeWhileAnalyzing(s: Session)
    requires s.Valid() && s.isAnalyzing && Trim(s.code) != ""
    modifies s
    ensures s.isAnalyzing && |s.requests| == |old(s.requests)| + 1 && |s.inFlight| == |old(s.inFlight)| + 1
  {
    assert Lower("analyze") == "analyze";
    var command := s.HandleVoiceInput("analyze");
    assert command == Analyze;
  }

  /** An analysis started before `User.me` returned: the profile that arrives meanwhile,
      voice on, is not the one the handler reads, so the record says no voice, no count is
      written and nothing is narrated. */
  method ProfileLoadedMidAnalysis(p: Profile, r: Explanation) returns (s: Session)
    requires p.voiceEnabled == Some(true)
    ensures s.Valid() && !s.isAnalyzing && s.explanation == Some(r)
    ensures |s.sessions| == 1 && !s.sessions[0].voiceUsed
    ensures s.counterWrites == [] && s.timers == [] && s.userProfile == Some(p)
  {
    s := new Session();
    var code := "x = 1";
    s.EditCode(code);
    TrimEmptyIffBlank(code);
    assert !IsWhitespace(code[0]);
    var started := s.StartAnalysis();
    s.LoadUserProfile(Some(p));
    s.FinishAnalysis(0, Responded(r), true, true);
  }

  /** The "Get Help" button:a disabled button sends nothing; an enabled one keeps the
      editor busy until the awaited analysis has finished. */
  method ClickGetHelp(s: Session, editor: CodeEditor.Editor, result: ServiceResult, createOk: bool, updateOk: bool)
    requires s.Valid() && s.inFlight == []
    modifies s, editor
    ensures s.Valid() && !s.isAnalyzing
    ensures !CodeEditor.AnalyzeEnabled(old(editor.isAnalyzing), old(s.code)) ==>
      s.requests == old(s.requests) && editor.isAnalyzing == old(editor.isAnalyzing)
    ensures CodeEditor.AnalyzeEnabled(old(editor.isAnalyzing), old(s.code)) ==>
      |s.requests| == |old(s.requests)| + 1 && !editor.isAnalyzing
  {
    var fired := editor.ClickAnalyze(s.code);
    if fired {
      assert editor.isAnalyzing;
      var _ := AnalyzeToCompletion(s, result, createOk, updateOk);
      editor.AnalyzeSettled();
    }
  }

  /** The worked example: python code with an undefined name, voice on. The explanation is
      the response, one python session is stored, and the timer reads the narration out. */
  method NameErrorScenario(p: Profile) returns (s: Session)
    requires p.voiceEnabled == Some(true)
    ensures s.explanation == Some(Explanation(Some("NameError"), Some("x is undefined"), Some("define x before returning it"), Some(["variable scope"])))
    ensures |s.sessions| == 1 && s.sessions[0].programmingLanguage == "python" && s.sessions[0].voiceUsed
    ensures s.narrations == [Narration(s.explanation.value)]
  {
    var e := Explanation(Some("NameError"), Some("x is undefined"), Some("define x before returning it"), Some(["variable scope"]));
    s := new Session();
    s.LoadUserProfile(Some(p.(preferredLanguage := Some("python"))));
    var code := "def f():\n  return x";
    s.EditCode(code);
    TrimEmptyIffBlank(code);
    assert !IsWhitespace(code[0]);
    var started := AnalyzeToCompletion(s, Responded(e), true, true);
    s.NarrationTimerFires();
  }
}

=== FILE: entities.dfy ===
/** The stored entities the components read and write: the user profile, debugging-session
    records, tutorials and tutorial progress, and the analysis service's explanation.
    A field the store may leave unset is an `Option`. */
module Entities {
  import opened Wrappers

  /** The analysis service's answer: the four fields of its response schema, none of
      which the schema requires. */
  datatype Explanation = Explanation(
    errorType: Option<string>,
    simpleExplanation: Option<string>,
    solution: Option<string>,
    learningPoints: Option<seq<string>>)

  /** A text field as a template literal shows it: a missing one reads "undefined". */
  function Interpolated(field: Option<string>): string {
    field.GetOr("undefined")
  }

  /** The current user (`User.me()`), as far as these pages read it. */
  datatype Profile = Profile(
    email: Option<string>,
    preferredLanguage: Option<string>,
    voiceEnabled: Option<bool>,
    speechRate: Option<real>,
    programmingLevel: Option<string>,
    totalSessions: Option<int>,
    learningStreak: Option<int>)

  /** A stored debugging session (`DebuggingSession`). */
  datatype SessionRecord = SessionRecord(
    codeInput: string,
    programmingLanguage: string,
    explanationProvided: Option<string>,
    solutionSuggested: Option<string>,
    voiceUsed: bool,
    conceptsLearned: seq<string>,
    sessionDuration: Option<nat>,
    userSatisfaction: Option<int>)

  /** A catalogue tutorial (`Tutorial`). */
  datatype Tutorial = Tutorial(
    id: string,
    title: string,
    description: Option<string>,
    programmingLanguage: string,
    difficultyLevel: string,
    conceptsCovered: Option<seq<string>>)

  /** One user's progress on one tutorial (`UserProgress`). */
  datatype ProgressRecord = ProgressRecord(
    tutorialId: string,
    completionStatus: string,
    masteryScore: Option<int>,
    timeSpent: Option<nat>)

  const Completed := "completed"
  const InProgress := "in_progress"

  /** `p.voice_enabled` read with `||`: only a stored `true` turns voice on. */
  predicate VoiceOn(p: Option<Profile>) {
    p.Some? && p.value.voiceEnabled == Some(true)
  }

  /** `userProfile?.total_sessions || 0`. */
  function TotalSessions(p: Option<Profile>): int {
    if p.Some? then p.value.totalSessions.GetOr(0) else 0
  }

  /** `userProfile?.learning_streak || 0`. */
  function LearningStreak(p: Option<Profile>): int {
    if p.Some? then p.value.learningStreak.GetOr(0) else 0
  }
}

=== FILE: error_explanation.dfy ===
/** The explanation panel: the text its Copy button puts on the clipboard, the calls its
    Listen button makes on the synthesis engine, which view it renders, and the ratings
    its two buttons send. */
module ErrorExplanation {
  import opened Wrappers
  import opened Entities
  import opened VoiceControls
  import Debugger

  /** `copyExplanation`: the three labelled sections separated by blank lines; nothing is
      copied without an explanation. */
  function CopyText(explanation: Option<Explanation>): (t: Option<string>)
    ensures t.Some? <==> explanation.Some?
    ensures t.Some? ==>
      var e := explanation.value;
      var head := "Error: " + Interpolated(e.errorType) + "\n\nExplanation: ";
      var body := Interpolated(e.simpleExplanation);
      var tail := "\n\nSolution: " + Interpolated(e.solution);
      && |t.value| == |head| + |body| + |tail|
      && head <= t.value
      && t.value[|head|..|head| + |body|] == body
      && t.value[|t.value| - |tail|..] == tail
  {
    match explanation
    case None => None
    case Some(e) =>
      Some("Error: " + Interpolated(e.errorType) + "\n\nExplanation: " + Interpolated(e.simpleExplanation)
           + "\n\nSolution: " + Interpolated(e.solution))
  }

  const ListenRate: real := 1.0
  const ListenPitch: real := 1.0
  const ListenVolume: real := 0.9

  /** The utterance the Listen button builds: the debugger's narration, at fixed rate 1.0,
      pitch 1 and volume 0.9 (not the user's speech rate). */
  function ListenUtterance(e: Explanation): (u: Utterance)
    ensures u.text == Debugger.Narration(e)
    ensures u.rate == 1.0 && u.pitch == 1.0 && u.volume == 0.9
  {
    Utterance(Debugger.Narration(e), ListenRate, ListenPitch, ListenVolume)
  }

  /** `handleSpeak`: the calls made on the synthesis engine. */
  function ListenCalls(explanation: Option<Explanation>, synthesisAvailable: bool): (calls: seq<SynthCall>)
    ensures explanation.None? || !synthesisAvailable ==> calls == []
    ensures explanation.Some? && synthesisAvailable ==>
      calls == [Cancel, Enqueue(ListenUtterance(explanation.value))]
  {
    if explanation.Some? && synthesisAvailable then [Cancel, Enqueue(ListenUtterance(explanation.value))] else []
  }

  /** Whatever the engine had been asked to play before (by the voice controls or an
      earlier Listen), after a Listen only the explanation's narration remains requested. */
  lemma ListenPreempts(prior: seq<SynthCall>, e: Explanation)
    ensures Requested(prior + ListenCalls(Some(e), true)) == [ListenUtterance(e)]
  {
    CancelThenSpeak(prior, ListenUtterance(e));
  }

  /** Listen alerts that speech is unsupported exactly when there is an explanation to read
      but no synthesis engine; then no engine call is made. */
  predicate ListenAlerts(explanation: Option<Explanation>, synthesisAvailable: bool) {
    explanation.Some? && !synthesisAvailable
  }

  lemma AlertMeansSilence(explanation: Option<Explanation>, synthesisAvailable: bool)
    ensures ListenAlerts(explanation, synthesisAvailable) ==> ListenCalls(explanation, synthesisAvailable) == []
    ensures ListenCalls(explanation, synthesisAvailable) == [] <==>
      explanation.None? || ListenAlerts(explanation, synthesisAvailable)
  {
  }

  const BadgeFallback := "Code Issue Detected"

  /** The view the panel renders. */
  datatype Panel = LoadingPanel | NoPanel | ResultPanel(badge: string, showLearningPoints: bool)

  /** Loading wins over everything; without an explanation nothing is rendered; otherwise
      the result card, whose badge falls back to a fixed text for a missing or empty error
      type and
      whose learning-points section appears only for a non-empty list. */
  function Render(explanation: Option<Explanation>, isLoading: bool): (p: Panel)
    ensures p == LoadingPanel <==> isLoading
    ensures p == NoPanel <==> !isLoading && explanation.None?
    ensures p.ResultPanel? ==> p.badge != ""
    ensures p.ResultPanel? ==>
      var errorType := explanation.value.errorType;
      (errorType.Some? && errorType.value != "" ==> p.badge == errorType.value)
      && (errorType.None? || errorType.value == "" ==> p.badge == BadgeFallback)
    ensures p.ResultPanel? ==>
      (p.showLearningPoints <==> explanation.value.learningPoints.GetOr([]) != [])
  {
    if isLoading then LoadingPanel
    else if explanation.None? then NoPanel
    else
      var e := explanation.value;
      ResultPanel(if e.errorType.Some? && e.errorType.value != "" then e.errorType.value else BadgeFallback,
                  e.learningPoints.Some? && |e.learningPoints.value| > 0)
  }

  const HelpfulRating := 5
  const NeedsImprovementRating := 2

  /** The rating a thumbs button sends: 5 for "Yes, helpful!", 2 for "Needs improvement". */
  function RatingFor(helpful: bool): (r: int)
    ensures 1 <= r <= 5
    ensures helpful <==> r > 3
    ensures r == if helpful then 5 else 2
  {
    if helpful then HelpfulRating else NeedsImprovementRating
  }

  /** A thumbs click on the debugger page: the rating goes to the newest stored session
      when there is an explanation and the store accepts it. */
  method ClickRating(s: Debugger.Session, helpful: bool, storeOk: bool)
    requires s.Valid()
    modifies s`sessions
    ensures s.Valid() && |s.sessions| == |old(s.sessions)|
    ensures s.explanation.Some? && storeOk && old(s.sessions) != [] ==>
      s.sessions[|s.sessions| - 1].userSatisfaction == Some(if helpful then 5 else 2)
      && s.sessions[..|s.sessions| - 1] == old(s.sessions)[..|s.sessions| - 1]
  {
    s.RateExplanation(RatingFor(helpful), storeOk);
  }
}

=== FILE: progress.dfy ===
/** The progress page: sessions per language sorted by frequency, the tutorial completion
    breakdown, total time spent and the threshold achievements. The page works on the
    sessions and progress records the store returned (at most the 50 newest sessions). */
module Progress {
  import opened Wrappers
  import opened Entities
  import Tutorials

  // ---------------------------------------------------------------------------
  // Sessions per language

  datatype LanguageCount = LanguageCount(language: string, count: nat)

  /** The positions of the sessions in `language`. */
  ghost function PositionsOf(sessions: seq<SessionRecord>, language: string): set<nat> {
    set i: nat | i < |sessions| && sessions[i].programmingLanguage == language
  }

  /** The number of sessions in `language`. */
  function CountLanguage(sessions: seq<SessionRecord>, language: string): (n: nat)
    ensures n <= |sessions|
  {
    if sessions == [] then 0
    else CountLanguage(sessions[..|sessions| - 1], language)
         + (if sessions[|sessions| - 1].programmingLanguage == language then 1 else 0)
  }

  /** The count is the number of positions holding a session in that language. */
  lemma {:induction false} CountLanguagePositions(sessions: seq<SessionRecord>, language: string)
    ensures CountLanguage(sessions, language) == |PositionsOf(sessions, language)|
    decreases |sessions|
  {
    if sessions != [] {
      var m := |sessions| - 1;
      var prev := sessions[..m];
      CountLanguagePositions(prev, language);
      var hit := sessions[m].programmingLanguage == language;
      assert PositionsOf(sessions, language) == PositionsOf(prev, language) + (if hit then {m} else {});
    }
  }

  /** The languages of the sessions, each once, in order of first occurrence: the order in
      which `languageCounts` acquires its keys. */
  function FirstOccurrences(sessions: seq<SessionRecord>): seq<string> {
    if sessions == [] then []
    else
      var prev := FirstOccurrences(sessions[..|sessions| - 1]);
      var language := sessions[|sessions| - 1].programmingLanguage;
      if language in prev then prev else prev + [language]
  }

  predicate Distinct(keys: seq<string>) {
    forall i, j :: 0 <= i < j < |keys| ==> keys[i] != keys[j]
  }

  /** The key list is duplicate-free and holds exactly the languages that occur. */
  lemma {:induction false} FirstOccurrencesFacts(sessions: seq<SessionRecord>)
    ensures Distinct(FirstOccurrences(sessions))
    ensures forall l :: l in FirstOccurrences(sessions) <==> CountLanguage(sessions, l) > 0
    decreases |sessions|
  {
    if sessions != [] {
      FirstOccurrencesFacts(sessions[..|sessions| - 1]);
    }
  }

  /** Every session's language is listed. */
  lemma {:induction false} SessionLanguagesCounted(sessions: seq<SessionRecord>, i: nat)
    requires i < |sessions|
    ensures CountLanguage(sessions, sessions[i].programmingLanguage) > 0
    decreases |sessions|
  {
    if i < |sessions| - 1 {
      SessionLanguagesCounted(sessions[..|sessions| - 1], i);
    }
  }

  function TallyOf(sessions: seq<SessionRecord>, keys: seq<string>): (t: seq<LanguageCount>)
    ensures |t| == |keys|
  {
    seq(|keys|, j requires 0 <= j < |keys| => LanguageCount(keys[j], CountLanguage(sessions, keys[j])))
  }

  /** The `Object.entries` of `languageCounts`, before sorting. */
  function Tally(sessions: seq<SessionRecord>): seq<LanguageCount> {
    TallyOf(sessions, FirstOccurrences(sessions))
  }

  function Sum(stats: seq<LanguageCount>): nat {
    if stats == [] then 0 else stats[0].count + Sum(stats[1..])
  }

  lemma {:induction false} SumAppend(a: seq<LanguageCount>, b: seq<LanguageCount>)
    ensures Sum(a + b) == Sum(a) + Sum(b)
    decreases |a|
  {
    if a == [] {
      assert a + b == b;
    } else {
      assert (a + b)[1..] == a[1..] + b;
      SumAppend(a[1..], b);
    }
  }

  lemma {:induction false} SumTallyStep(sessions: seq<SessionRecord>, x: SessionRecord, keys: seq<string>)
    requires Distinct(keys)
    ensures Sum(TallyOf(sessions + [x], keys)) ==
      Sum(TallyOf(sessions, keys)) + (if x.programmingLanguage in keys then 1 else 0)
    decreases |keys|
  {
    if keys != [] {
      var n := |keys| - 1;
      var s' := sessions + [x];
      assert s'[..|s'| - 1] == sessions;
      assert TallyOf(s', keys) == TallyOf(s', keys[..n]) + [LanguageCount(keys[n], CountLanguage(s', keys[n]))];
      assert TallyOf(sessions, keys) == TallyOf(sessions, keys[..n]) + [LanguageCount(keys[n], CountLanguage(sessions, keys[n]))];
      SumAppend(TallyOf(s', keys[..n]), [LanguageCount(keys[n], CountLanguage(s', keys[n]))]);
      SumAppend(TallyOf(sessions, keys[..n]), [LanguageCount(keys[n], CountLanguage(sessions, keys[n]))]);
      SumTallyStep(sessions, x, keys[..n]);
      assert x.programmingLanguage in keys <==> x.programmingLanguage in keys[..n] || x.programmingLanguage == keys[n];
    } else {
      assert TallyOf(sessions + [x], keys) == [];
    }
  }

  /** The counts add up to the number of sessions. */
  lemma {:induction false} TallySum(sessions: seq<SessionRecord>)
    ensures Sum(Tally(sessions)) == |sessions|
    decreases |sessions|
  {
    if sessions != [] {
      var prefix := sessions[..|sessions| - 1];
      var x := sessions[|sessions| - 1];
      assert sessions == prefix + [x];
      TallySum(prefix);
      FirstOccurrencesFacts(prefix);
      var keys := FirstOccurrences(prefix);
      SumTallyStep(prefix, x, keys);
      if x.programmingLanguage !in keys {
        var keys' := keys + [x.programmingLanguage];
        assert Distinct(keys');
        SumTallyStep(prefix, x, keys');
        assert TallyOf(prefix, keys') == TallyOf(prefix, keys) + [LanguageCount(x.programmingLanguage, 0)];
        SumAppend(TallyOf(prefix, keys), [LanguageCount(x.programmingLanguage, 0)]);
      }
    }
  }

  /** Each language of the tally appears once, with its number of sessions, which is
      positive; every session's language appears. */
  lemma TallyFacts(sessions: seq<SessionRecord>)
    ensures DistinctLanguages(Tally(sessions))
    ensures forall e :: e in Tally(sessions) ==> e.count == CountLanguage(sessions, e.language) > 0
    ensures forall i :: 0 <= i < |sessions| ==> sessions[i].programmingLanguage in Languages(Tally(sessions))
  {
    FirstOccurrencesFacts(sessions);
    var t := Tally(sessions);
    forall i | 0 <= i < |sessions|
      ensures sessions[i].programmingLanguage in Languages(t)
    {
      SessionLanguagesCounted(sessions, i);
      var keys := FirstOccurrences(sessions);
      var j :| 0 <= j < |keys| && keys[j] == sessions[i].programmingLanguage;
      assert t[j].language == keys[j];
    }
  }

  function Languages(stats: seq<LanguageCount>): set<string> {
    set e | e in stats :: e.language
  }

  predicate DistinctLanguages(stats: seq<LanguageCount>) {
    forall i, j :: 0 <= i < j < |stats| ==> stats[i].language != stats[j].language
  }

  /** Non-increasing counts. */
  predicate SortedByCount(stats: seq<LanguageCount>) {
    forall i, j :: 0 <= i < j < |stats| ==> stats[i].count >= stats[j].count
  }

  /** The entries with count `c`, in order. */
  function WithCount(stats: seq<LanguageCount>, c: nat): seq<LanguageCount> {
    if stats == [] then []
    else (if stats[0].count == c then [stats[0]] else []) + WithCount(stats[1..], c)
  }

  lemma {:induction false} WithCountAppend(a: seq<LanguageCount>, b: seq<LanguageCount>, c: nat)
    ensures WithCount(a + b, c) == WithCount(a, c) + WithCount(b, c)
    decreases |a|
  {
    if a == [] {
      assert a + b == b;
    } else {
      var head := if a[0].count == c then [a[0]] else [];
      assert (a + b)[0] == a[0];
      assert (a + b)[1..] == a[1..] + b;
      WithCountAppend(a[1..], b, c);
      calc {
        WithCount(a + b, c);
        head + WithCount(a[1..] + b, c);
        head + (WithCount(a[1..], c) + WithCount(b, c));
        (head + WithCount(a[1..], c)) + WithCount(b, c);
      }
    }
  }

  lemma {:induction false} WithCountNone(stats: seq<LanguageCount>, c: nat)
    requires forall i :: 0 <= i < |stats| ==> stats[i].count < c
    ensures WithCount(stats, c) == []
    decreases |stats|
  {
    if stats != [] {
      WithCountNone(stats[1..], c);
    }
  }

  /** Places `x` after every entry whose count is at least its own. */
  function Insert(x: LanguageCount, sorted: seq<LanguageCount>): seq<LanguageCount>
    decreases |sorted|
  {
    if sorted != [] && sorted[0].count >= x.count then [sorted[0]] + Insert(x, sorted[1..])
    else [x] + sorted
  }

  /** `.sort((a, b) => b.count - a.count)` with a stable sort. */
  function SortByCount(stats: seq<LanguageCount>): seq<LanguageCount>
    decreases |stats|
  {
    if stats == [] then [] else Insert(stats[|stats| - 1], SortByCount(stats[..|stats| - 1]))
  }

  lemma {:induction false} InsertPermutes(x: LanguageCount, sorted: seq<LanguageCount>)
    ensures multiset(Insert(x, sorted)) == multiset(sorted) + multiset{x}
    decreases |sorted|
  {
    if sorted != [] && sorted[0].count >= x.count {
      InsertPermutes(x, sorted[1..]);
      assert sorted == [sorted[0]] + sorted[1..];
    }
  }

  lemma {:induction false} InsertSum(x: LanguageCount, sorted: seq<LanguageCount>)
    ensures Sum(Insert(x, sorted)) == Sum(sorted) + x.count
    decreases |sorted|
  {
    if sorted != [] && sorted[0].count >= x.count {
      InsertSum(x, sorted[1..]);
      assert ([sorted[0]] + Insert(x, sorted[1..]))[1..] == Insert(x, sorted[1..]);
    } else {
      assert ([x] + sorted)[1..] == sorted;
    }
  }

  lemma {:induction false} InsertSorted(x: LanguageCount, sorted: seq<LanguageCount>)
    requires SortedByCount(sorted)
    ensures SortedByCount(Insert(x, sorted))
    decreases |sorted|
  {
    if sorted != [] && sorted[0].count >= x.count {
      var rest := Insert(x, sorted[1..]);
      InsertSorted(x, sorted[1..]);
      InsertPermutes(x, sorted[1..]);
      var r := [sorted[0]] + rest;
      forall i, j | 0 <= i < j < |r| ensures r[i].count >= r[j].count {
        if i == 0 {
          assert r[j] == rest[j - 1];
          assert r[j] in multiset(rest);
          assert r[j] in sorted[1..] || r[j] == x;
        } else {
          assert r[i] == rest[i - 1] && r[j] == rest[j - 1];
        }
      }
    }
  }

  lemma {:induction false} InsertWithCount(x: LanguageCount, sorted: seq<LanguageCount>, c: nat)
    requires SortedByCount(sorted)
    ensures WithCount(Insert(x, sorted), c) == WithCount(sorted, c) + (if x.count == c then [x] else [])
    decreases |sorted|
  {
    if sorted != [] && sorted[0].count >= x.count {
      InsertWithCount(x, sorted[1..], c);
      assert ([sorted[0]] + Insert(x, sorted[1..]))[1..] == Insert(x, sorted[1..]);
    } else {
      assert ([x] + sorted)[1..] == sorted;
      if x.count == c {
        WithCountNone(sorted, c);
      }
    }
  }

  lemma {:induction false} SortByCountFacts(stats: seq<LanguageCount>)
    ensures SortedByCount(SortByCount(stats))
    ensures multiset(SortByCount(stats)) == multiset(stats)
    ensures Sum(SortByCount(stats)) == Sum(stats)
    ensures forall c :: WithCount(SortByCount(stats), c) == WithCount(stats, c)
    decreases |stats|
  {
    if stats != [] {
      var prefix := stats[..|stats| - 1];
      var x := stats[|stats| - 1];
      assert stats == prefix + [x];
      SortByCountFacts(prefix);
      InsertSorted(x, SortByCount(prefix));
      InsertPermutes(x, SortByCount(prefix));
      InsertSum(x, SortByCount(prefix));
      SumAppend(prefix, [x]);
      forall c ensures WithCount(SortByCount(stats), c) == WithCount(stats, c) {
        InsertWithCount(x, SortByCount(prefix), c);
        WithCountAppend(prefix, [x], c);
      }
    }
  }

  lemma {:induction false} InsertKeepsDistinct(x: LanguageCount, sorted: seq<LanguageCount>)
    requires DistinctLanguages(sorted)
    requires forall e :: e in sorted ==> e.language != x.language
    ensures DistinctLanguages(Insert(x, sorted))
    ensures forall e :: e in Insert(x, sorted) ==> e == x || e in sorted
    decreases |sorted|
  {
    if sorted != [] && sorted[0].count >= x.count {
      InsertKeepsDistinct(x, sorted[1..]);
      var r := [sorted[0]] + Insert(x, sorted[1..]);
      assert r[1..] == Insert(x, sorted[1..]);
      forall i, j | 0 <= i < j < |r| ensures r[i].language != r[j].language {
        if i == 0 {
          assert r[j] in Insert(x, sorted[1..]);
          if r[j] != x {
            var k :| 0 <= k < |sorted[1..]| && sorted[1..][k] == r[j];
            assert sorted[k + 1] == r[j];
          }
        }
      }
    } else {
      var r := [x] + sorted;
      forall i, j | 0 <= i < j < |r| ensures r[i].language != r[j].language {
        if i == 0 {
          assert r[j] == sorted[j - 1];
        } else {
          assert r[i] == sorted[i - 1] && r[j] == sorted[j - 1];
        }
      }
    }
  }

  lemma {:induction false} SortKeepsDistinct(stats: seq<LanguageCount>)
    requires DistinctLanguages(stats)
    ensures DistinctLanguages(SortByCount(stats))
    decreases |stats|
  {
    if stats != [] {
      var prefix := stats[..|stats| - 1];
      var x := stats[|stats| - 1];
      SortKeepsDistinct(prefix);
      SortByCountFacts(prefix);
      forall e | e in SortByCount(prefix) ensures e.language != x.language {
        assert e in multiset(prefix);
        var k :| 0 <= k < |prefix| && prefix[k] == e;
        assert stats[k] == e;
      }
      InsertKeepsDistinct(x, SortByCount(prefix));
    }
  }

  /** `getLanguageStats`: counts the sessions per language in an insertion-ordered
      dictionary, then sorts its entries by count, most used first; languages with equal
      counts stay in order of first occurrence. */
  method LanguageStats(sessions: seq<SessionRecord>) returns (stats: seq<LanguageCount>)
    ensures stats == SortByCount(Tally(sessions))
    ensures SortedByCount(stats)
    ensures multiset(stats) == multiset(Tally(sessions))
    ensures forall c :: WithCount(stats, c) == WithCount(Tally(sessions), c)
    ensures DistinctLanguages(stats)
    ensures forall e :: e in stats ==> e.count == CountLanguage(sessions, e.language) > 0
    ensures forall i :: 0 <= i < |sessions| ==> sessions[i].programmingLanguage in Languages(stats)
    ensures Sum(stats) == |sessions|
  {
    var keys: seq<string> := [];
    var counts: map<string, nat> := map[];
    var i := 0;
    while i < |sessions|
      invariant 0 <= i <= |sessions|
      invariant keys == FirstOccurrences(sessions[..i])
      invariant forall k :: k in counts <==> k in keys
      invariant forall k :: k in counts ==> counts[k] == CountLanguage(sessions[..i], k)
    {
      var language := sessions[i].programmingLanguage;
      assert sessions[..i + 1][..i] == sessions[..i];
      FirstOccurrencesFacts(sessions[..i]);
      if language in counts {
        counts := counts[language := counts[language] + 1];
      } else {
        counts := counts[language := 1];
        keys := keys + [language];
      }
      i := i + 1;
    }
    assert sessions[..i] == sessions;
    var entries := seq(|keys|, j requires 0 <= j < |keys| => LanguageCount(keys[j], counts[keys[j]]));
    assert entries == Tally(sessions);
    stats := SortByCount(entries);
    SortByCountFacts(entries);
    TallyFacts(sessions);
    TallySum(sessions);
    SortKeepsDistinct(entries);
    forall e | e in stats ensures e.count == CountLanguage(sessions, e.language) > 0 {
      assert e in multiset(entries);
    }
    forall i | 0 <= i < |sessions| ensures sessions[i].programmingLanguage in Languages(stats) {
      var e :| e in entries && e.language == sessions[i].programmingLanguage;
      assert e in multiset(stats);
    }
  }

  // ---------------------------------------------------------------------------
  // Completion breakdown

  datatype CompletionStats = CompletionStats(completed: nat, inProgress: nat, notStarted: int, total: nat, completionRate: nat)

  /** Records cannot be counted under two different statuses. */
  lemma {:induction false} TwoStatusesBounded(progress: seq<ProgressRecord>, a: string, b: string)
    requires a != b
    ensures Tutorials.CountStatus(progress, a) + Tutorials.CountStatus(progress, b) <= |progress|
    decreases |progress|
  {
    if progress != [] {
      TwoStatusesBounded(progress[1..], a, b);
    }
  }

  /** `getCompletionStats`: completed and in-progress records, the rest of the tutorial count
      as not started (negative when there are more records than tutorials), and the
      completion rate rounded as on the tutorials page. */
  function GetCompletionStats(progress: seq<ProgressRecord>, tutorials: seq<Tutorial>): (st: CompletionStats)
    ensures st.total == |tutorials|
    ensures st.completed + st.inProgress + st.notStarted == st.total
    ensures st.completed == Tutorials.CountStatus(progress, Completed)
    ensures st.inProgress == Tutorials.CountStatus(progress, InProgress)
    ensures st.completed + st.inProgress <= |progress|
    ensures st.notStarted >= 0 <==> st.completed + st.inProgress <= st.total
    ensures st.completionRate == Tutorials.CompletionPercentage(tutorials, progress)
    ensures st.completed <= st.total ==> st.completionRate <= 100
  {
    var completed := Tutorials.CountStatus(progress, Completed);
    var inProgress := Tutorials.CountStatus(progress, InProgress);
    TwoStatusesBounded(progress, Completed, InProgress);
    var total := |tutorials|;
    CompletionStats(completed, inProgress, total - completed - inProgress, total,
                    if total > 0 then Tutorials.RoundedPercent(completed, total) else 0)
  }

  // ---------------------------------------------------------------------------
  // Total time

  /** The sum of the session durations, a missing one counting as 0. */
  function SessionTime(sessions: seq<SessionRecord>): nat {
    if sessions == [] then 0
    else SessionTime(sessions[..|sessions| - 1]) + sessions[|sessions| - 1].sessionDuration.GetOr(0)
  }

  /** The sum of the tutorial times, a missing one counting as 0. */
  function TutorialTime(progress: seq<ProgressRecord>): nat {
    if progress == [] then 0
    else TutorialTime(progress[..|progress| - 1]) + progress[|progress| - 1].timeSpent.GetOr(0)
  }

  /** `getTotalTimeSpent`. */
  function TotalTimeSpent(sessions: seq<SessionRecord>, progress: seq<ProgressRecord>): nat {
    SessionTime(sessions) + TutorialTime(progress)
  }

  lemma {:induction false} SessionTimeAppend(a: seq<SessionRecord>, b: seq<SessionRecord>)
    ensures SessionTime(a + b) == SessionTime(a) + SessionTime(b)
    decreases |b|
  {
    if b == [] {
      assert a + b == a;
    } else {
      assert (a + b)[..|a + b| - 1] == a + b[..|b| - 1];
      SessionTimeAppend(a, b[..|b| - 1]);
    }
  }

  lemma {:induction false} TutorialTimeAppend(a: seq<ProgressRecord>, b: seq<ProgressRecord>)
    ensures TutorialTime(a + b) == TutorialTime(a) + TutorialTime(b)
    decreases |b|
  {
    if b == [] {
      assert a + b == a;
    } else {
      assert (a + b)[..|a + b| - 1] == a + b[..|b| - 1];
      TutorialTimeAppend(a, b[..|b| - 1]);
    }
  }

  /** Total time is additive over both lists: splitting the sessions or the records in two
      splits the total accordingly. */
  lemma TotalTimeAdditive(s1: seq<SessionRecord>, s2: seq<SessionRecord>, p1: seq<ProgressRecord>, p2: seq<ProgressRecord>)
    ensures TotalTimeSpent(s1 + s2, p1 + p2) == TotalTimeSpent(s1, p1) + TotalTimeSpent(s2, p2)
  {
    SessionTimeAppend(s1, s2);
    TutorialTimeAppend(p1, p2);
  }

  /** A session or record without a duration adds nothing. */
  lemma MissingTimeCountsZero(sessions: seq<SessionRecord>, progress: seq<ProgressRecord>, s: SessionRecord, p: ProgressRecord)
    requires s.sessionDuration.None? && p.timeSpent.None?
    ensures TotalTimeSpent(sessions + [s], progress + [p]) == TotalTimeSpent(sessions, progress)
  {
    assert (sessions + [s])[..|sessions|] == sessions;
    assert (progress + [p])[..|progress|] == progress;
  }

  // ---------------------------------------------------------------------------
  // Achievements

  datatype Achievement = Achievement(title: string, desc: string, icon: string)

  /** The eight achievements, in the order they are listed. */
  const Catalogue: seq<Achievement> := [
    Achievement("First Steps", "Completed your first debugging session", "\U{1F680}"),
    Achievement("Debugger", "Completed 10 debugging sessions", "\U{1F50D}"),
    Achievement("Bug Hunter", "Completed 25 debugging sessions", "\U{1F3AF}"),
    Achievement("Scholar", "Completed your first tutorial", "\U{1F4DA}"),
    Achievement("Knowledge Seeker", "Completed 5 tutorials", "\U{1F9E0}"),
    Achievement("Consistent Learner", "3-day learning streak", "\U{1F525}"),
    Achievement("Week Warrior", "7-day learning streak", "\U{26A1}"),
    Achievement("Voice Master", "Used voice features 5 times", "\U{1F3A4}")
  ]

  /** What the thresholds are compared with. */
  datatype Counts = Counts(sessionCount: nat, completedTutorials: nat, streak: int, voiceSessions: nat)

  /** The number of sessions that used voice. */
  function VoiceSessions(sessions: seq<SessionRecord>): (n: nat)
    ensures n <= |sessions|
  {
    if sessions == [] then 0
    else VoiceSessions(sessions[..|sessions| - 1]) + (if sessions[|sessions| - 1].voiceUsed then 1 else 0)
  }

  function CountsOf(sessions: seq<SessionRecord>, progress: seq<ProgressRecord>, profile: Option<Profile>): Counts {
    Counts(|sessions|, Tutorials.CountStatus(progress, Completed), LearningStreak(profile), VoiceSessions(sessions))
  }

  /** The count the k-th achievement looks at, and its threshold. */
  function Measure(c: Counts, k: nat): int
    requires k < 8
  {
    if k < 3 then c.sessionCount
    else if k < 5 then c.completedTutorials
    else if k < 7 then c.streak
    else c.voiceSessions
  }

  function Threshold(k: nat): int
    requires k < 8
  {
    [1, 10, 25, 1, 5, 3, 7, 5][k]
  }

  predicate Earned(c: Counts, k: nat)
    requires k < 8
  {
    Measure(c, k) >= Threshold(k)
  }

  /** The earned achievements among the first n of the catalogue, in catalogue order. */
  function EarnedAmong(c: Counts, n: nat): (r: seq<Achievement>)
    requires n <= 8
    ensures |r| <= n
    ensures forall a :: a in r <==> exists k :: 0 <= k < n && Catalogue[k] == a && Earned(c, k)
  {
    if n == 0 then []
    else EarnedAmong(c, n - 1) + (if Earned(c, n - 1) then [Catalogue[n - 1]] else [])
  }

  /** `getAchievements`: tests the eight thresholds in order, pushing each one met. */
  method GetAchievements(sessions: seq<SessionRecord>, progress: seq<ProgressRecord>, profile: Option<Profile>)
    returns (achievements: seq<Achievement>)
    ensures achievements == EarnedAmong(CountsOf(sessions, progress, profile), 8)
  {
    var c := CountsOf(sessions, progress, profile);
    achievements := [];
    if c.sessionCount >= 1 { achievements := achievements + [Catalogue[0]]; }
    assert achievements == EarnedAmong(c, 1);
    if c.sessionCount >= 10 { achievements := achievements + [Catalogue[1]]; }
    assert achievements == EarnedAmong(c, 2);
    if c.sessionCount >= 25 { achievements := achievements + [Catalogue[2]]; }
    assert achievements == EarnedAmong(c, 3);
    if c.completedTutorials >= 1 { achievements := achievements + [Catalogue[3]]; }
    assert achievements == EarnedAmong(c, 4);
    if c.completedTutorials >= 5 { achievements := achievements + [Catalogue[4]]; }
    assert achievements == EarnedAmong(c, 5);
    if c.streak >= 3 { achievements := achievements + [Catalogue[5]]; }
    assert achievements == EarnedAmong(c, 6);
    if c.streak >= 7 { achievements := achievements + [Catalogue[6]]; }
    assert achievements == EarnedAmong(c, 7);
    if c.voiceSessions >= 5 { achievements := achievements + [Catalogue[7]]; }
  }

  /** Each catalogue entry is listed exactly when its threshold is met. */
  lemma AchievementListed(c: Counts)
    ensures forall k :: 0 <= k < 8 ==> (Catalogue[k] in EarnedAmong(c, 8) <==> Earned(c, k))
  {
    CatalogueDistinct();
  }

  /** No two catalogue entries share a title. */
  lemma CatalogueDistinct()
    ensures forall i, j :: 0 <= i < j < 8 ==> Catalogue[i].title != Catalogue[j].title
  {
  }

  /** Raising any of the counts never takes an achievement away. */
  lemma AchievementsMonotone(c: Counts, d: Counts)
    requires c.sessionCount <= d.sessionCount && c.completedTutorials <= d.completedTutorials
    requires c.streak <= d.streak && c.voiceSessions <= d.voiceSessions
    ensures forall a :: a in EarnedAmong(c, 8) ==> a in EarnedAmong(d, 8)
  {
    forall a | a in EarnedAmong(c, 8) ensures a in EarnedAmong(d, 8) {
      var k :| 0 <= k < 8 && Catalogue[k] == a && Earned(c, k);
      assert Earned(d, k);
    }
  }

  /** A higher tier of a track implies the lower ones: "Bug Hunter" implies "Debugger",
      which implies "First Steps"; likewise for tutorials and streaks. */
  lemma TiersNest(c: Counts)
    ensures Catalogue[2] in EarnedAmong(c, 8) ==> Catalogue[1] in EarnedAmong(c, 8)
    ensures Catalogue[1] in EarnedAmong(c, 8) ==> Catalogue[0] in EarnedAmong(c, 8)
    ensures Catalogue[4] in EarnedAmong(c, 8) ==> Catalogue[3] in EarnedAmong(c, 8)
    ensures Catalogue[6] in EarnedAmong(c, 8) ==> Catalogue[5] in EarnedAmong(c, 8)
  {
    CatalogueDistinct();
  }

  /** The achievements appear in catalogue order. */
  lemma {:induction false} AchievementsInCatalogueOrder(c: Counts, n: nat)
    requires n <= 8
    ensures Tutorials.IsSubsequence(EarnedAmong(c, n), Catalogue[..n])
    decreases n
  {
    if n > 0 {
      AchievementsInCatalogueOrder(c, n - 1);
      assert Catalogue[..n] == Catalogue[..n - 1] + [Catalogue[n - 1]];
      SubsequenceExtend(EarnedAmong(c, n - 1), Catalogue[..n - 1], Catalogue[n - 1], Earned(c, n - 1));
    }
  }

  /** Appending one element to the longer sequence, and optionally to the shorter one too,
      keeps the subsequence relation. */
  lemma {:induction false} SubsequenceExtend<T>(a: seq<T>, b: seq<T>, x: T, take: bool)
    requires Tutorials.IsSubsequence(a, b)
    ensures Tutorials.IsSubsequence(a + (if take then [x] else []), b + [x])
    decreases |b|
  {
    var a' := a + (if take then [x] else []);
    if b == [] {
      assert a == [];
      if take {
        assert a' == [x] && b + [x] == [x] && [x][1..] == [];
      }
    } else if a == [] {
      if take {
        assert Tutorials.IsSubsequence([x], [x]) by { assert [x][1..] == []; }
        SubsequenceDrop([x], b, [x]);
        assert a' == [x];
      }
    } else {
      assert (b + [x])[1..] == b[1..] + [x];
      if a[0] == b[0] && Tutorials.IsSubsequence(a[1..], b[1..]) {
        SubsequenceExtend(a[1..], b[1..], x, take);
        assert a'[1..] == a[1..] + (if take then [x] else []);
      } else {
        SubsequenceExtend(a, b[1..], x, take);
      }
    }
  }

  /** A subsequence of `c` is a subsequence of `b + c`. */
  lemma {:induction false} SubsequenceDrop<T>(a: seq<T>, b: seq<T>, c: seq<T>)
    requires Tutorials.IsSubsequence(a, c)
    ensures Tutorials.IsSubsequence(a, b + c)
    decreases |b|
  {
    if b != [] {
      SubsequenceDrop(a, b[1..], c);
      assert (b + c)[1..] == b[1..] + c;
    } else {
      assert b + c == c;
    }
  }
}

=== FILE: settings.dfy ===
/** The settings page: loading the four settings from the profile (with `??` defaults),
    the save flow with its status message, the merge of the saved settings into the
    page's profile, and the speech test. */
module Settings {
  import opened Wrappers
  import opened Text
  import opened Entities
  import opened VoiceControls
  import Debugger

  datatype Settings = Settings(voiceEnabled: bool, speechRate: real, preferredLanguage: string, programmingLevel: string)

  /** The settings shown before the profile has loaded. */
  const DefaultSettings := Settings(true, 1.0, "python", "beginner")

  /** `loadUserSettings`: each setting is the stored value unless that is missing; stored
      values that are merely falsy (false, "") are kept. */
  function LoadSettings(p: Profile): (s: Settings)
    ensures p.voiceEnabled.Some? ==> s.voiceEnabled == p.voiceEnabled.value
    ensures p.speechRate.Some? ==> s.speechRate == p.speechRate.value
    ensures p.preferredLanguage.Some? ==> s.preferredLanguage == p.preferredLanguage.value
    ensures p.programmingLevel.Some? ==> s.programmingLevel == p.programmingLevel.value
    ensures p.voiceEnabled.None? ==> s.voiceEnabled == DefaultSettings.voiceEnabled
    ensures p.speechRate.None? ==> s.speechRate == DefaultSettings.speechRate
    ensures p.preferredLanguage.None? ==> s.preferredLanguage == DefaultSettings.preferredLanguage
    ensures p.programmingLevel.None? ==> s.programmingLevel == DefaultSettings.programmingLevel
  {
    Settings(p.voiceEnabled.GetOr(true), p.speechRate.GetOr(1.0),
             p.preferredLanguage.GetOr("python"), p.programmingLevel.GetOr("beginner"))
  }

  /** A stored empty preferred language is shown as empty here, while the debugger, which
      reads it with `||`, starts in python. */
  lemma EmptyLanguageReadTwoWays(p: Profile)
    requires p.preferredLanguage == Some("")
    ensures LoadSettings(p).preferredLanguage == ""
    ensures Debugger.StartingLanguage(p) == "python"
  {
  }

  /** Apart from an empty stored language, the debugger starts in the language the
      settings page shows, python included when none is stored. */
  lemma StartingLanguageMatchesSettings(p: Profile)
    requires p.preferredLanguage != Some("")
    ensures Debugger.StartingLanguage(p) == LoadSettings(p).preferredLanguage
    ensures p.preferredLanguage.None? ==> Debugger.StartingLanguage(p) == DefaultSettings.preferredLanguage
  {
  }

  /** A profile with nothing stored. */
  const NoProfile := Profile(None, None, None, None, None, None, None)

  /** `{ ...prev, ...settings }`: the four settings replace the profile's, everything else
      is kept; a missing profile contributes nothing. */
  function Merge(prev: Option<Profile>, s: Settings): (p: Profile)
    ensures p.voiceEnabled == Some(s.voiceEnabled) && p.speechRate == Some(s.speechRate)
    ensures p.preferredLanguage == Some(s.preferredLanguage) && p.programmingLevel == Some(s.programmingLevel)
    ensures var q := prev.GetOr(NoProfile);
      p.email == q.email && p.totalSessions == q.totalSessions && p.learningStreak == q.learningStreak
  {
    prev.GetOr(NoProfile).(voiceEnabled := Some(s.voiceEnabled), speechRate := Some(s.speechRate),
                           preferredLanguage := Some(s.preferredLanguage), programmingLevel := Some(s.programmingLevel))
  }

  /** Loading the merged profile gives back exactly the saved settings. */
  lemma LoadAfterMerge(prev: Option<Profile>, s: Settings)
    ensures LoadSettings(Merge(prev, s)) == s
  {
  }

  /** Merging the same settings twice is the same as once. */
  lemma MergeIdempotent(prev: Option<Profile>, s: Settings)
    ensures Merge(Some(Merge(prev, s)), s) == Merge(prev, s)
  {
  }

  /** Merging what was loaded changes only the settings that were missing. */
  lemma MergeLoadedKeepsStored(p: Profile)
    requires p.voiceEnabled.Some? && p.speechRate.Some? && p.preferredLanguage.Some? && p.programmingLevel.Some?
    ensures Merge(Some(p), LoadSettings(p)) == p
  {
  }

  const SavedMessage := "Settings saved successfully!"
  const SaveFailedMessage := "Failed to save settings. Please try again."

  /** The green style is used exactly when the message contains "successfully". */
  predicate SuccessStyle(message: string) {
    Contains(message, "successfully")
  }

  lemma MessageStyles()
    ensures SuccessStyle(SavedMessage)
    ensures !SuccessStyle(SaveFailedMessage)
  {
    assert "successfully" <= SavedMessage[15..];
    ContainsWitness(SavedMessage, "successfully", 15);
    assert "successfully"[1] == 'u';
    MissingCharNotContained(SaveFailedMessage, "successfully", 'u');
  }

  class Page {
    var userProfile: Option<Profile>
    var settings: Settings
    var isSaving: bool
    var saveMessage: string
    /** Pending 3-second timers that clear the message. */
    var clearTimers: nat

    /** Saves whose store call has not returned, each with the settings its handler
        captured and sent. */
    var pending: seq<Settings>
    /** Every call to `User.updateMyUserData`. */
    ghost var writes: seq<Settings>

    ghost predicate Valid()
      reads this
    {
      && (isSaving ==> pending != [])
      && |pending| <= |writes|
    }

    constructor ()
      ensures Valid()
      ensures userProfile == None && settings == DefaultSettings && !isSaving && saveMessage == ""
      ensures clearTimers == 0 && pending == [] && writes == []
    {
      userProfile := None;
      settings := DefaultSettings;
      isSaving := false;
      saveMessage := "";
      clearTimers := 0;
      pending, writes := [], [];
    }

    /** `loadUserSettings` (`user` is None when `User.me` fails: nothing changes). */
    method Load(user: Option<Profile>)
      requires Valid()
      modifies this`userProfile, this`settings
      ensures Valid()
      ensures user.Some? ==> userProfile == user && settings == LoadSettings(user.value)
      ensures user.None? ==> userProfile == old(userProfile) && settings == old(settings)
    {
      if user.Some? {
        userProfile := user;
        settings := LoadSettings(user.value);
      }
    }

    /** A control changes the settings being edited. */
    method Edit(next: Settings)
      requires Valid()
      modifies this`settings
      ensures Valid() && settings == next
    {
      settings := next;
    }

    /** `handleSaveSettings` up to its store call: saving, message cleared, the current
        settings sent. */
    method StartSave()
      requires Valid()
      modifies this`isSaving, this`saveMessage, this`pending, this`writes
      ensures Valid()
      ensures isSaving && saveMessage == ""
      ensures writes == old(writes) + [settings] && pending == old(pending) + [settings]
    {
      isSaving := true;
      saveMessage := "";
      writes := writes + [settings];
      pending := pending + [settings];
    }

    /** The store call of the k-th pending save returns (`ok`) or throws. On success the
        message confirms, the sent settings are merged into the page's current profile and
        a clearing timer starts; on failure the failure message is shown and the profile is
        left alone. Either way saving ends. */
    method FinishSave(k: nat, ok: bool)
      requires Valid() && k < |pending|
      modifies this`isSaving, this`saveMessage, this`userProfile, this`clearTimers, this`pending
      ensures Valid() && !isSaving
      ensures pending == old(pending[..k] + pending[k + 1..])
      ensures ok ==> (saveMessage == SavedMessage && userProfile == Some(Merge(old(userProfile), old(pending[k])))
                      && clearTimers == old(clearTimers) + 1)
      ensures !ok ==> (saveMessage == SaveFailedMessage && userProfile == old(userProfile)
                       && clearTimers == old(clearTimers))
    {
      var sent := pending[k];
      pending := pending[..k] + pending[k + 1..];
      if ok {
        saveMessage := SavedMessage;
        userProfile := Some(Merge(userProfile, sent));
        clearTimers := clearTimers + 1;
      } else {
        saveMessage := SaveFailedMessage;
      }
      isSaving := false;
    }

    /** The oldest clearing timer fires and empties the message, whichever save set it. */
    method ClearTimerFires()
      requires Valid() && clearTimers > 0
      modifies this`saveMessage, this`clearTimers
      ensures Valid() && saveMessage == "" && clearTimers == old(clearTimers) - 1
    {
      saveMessage := "";
      clearTimers := clearTimers - 1;
    }
  }

  /** One save run to completion: afterwards the page's profile loads back as the edited
      settings when the store accepted them. */
  method SaveToCompletion(page: Page, ok: bool)
    requires page.Valid() && page.pending == []
    modifies page
    ensures page.Valid() && !page.isSaving && page.pending == []
    ensures page.writes == old(page.writes) + [old(page.settings)]
    ensures ok ==> page.userProfile.Some? && LoadSettings(page.userProfile.value) == old(page.settings)
    ensures ok ==> page.saveMessage == SavedMessage && page.clearTimers == old(page.clearTimers) + 1
    ensures !ok ==> page.userProfile == old(page.userProfile)
    ensures !ok ==> page.saveMessage == SaveFailedMessage && page.clearTimers == old(page.clearTimers)
  {
    page.StartSave();
    page.FinishSave(0, ok);
    if ok {
      LoadAfterMerge(old(page.userProfile), old(page.settings));
    }
  }

  /** The timer of a successful save also clears the failure message of a save made
      within the next three seconds. */
  method EarlierTimerClearsLaterFailure(page: Page)
    requires page.Valid() && page.pending == [] && page.clearTimers == 0
    modifies page
    ensures page.saveMessage == "" && page.clearTimers == 0
  {
    SaveToCompletion(page, true);
    SaveToCompletion(page, false);
    assert page.saveMessage == SaveFailedMessage;
    page.ClearTimerFires();
  }

  /** The speech test's text, given the rate as JavaScript renders the number. */
  function TestText(rateText: string): string {
    "Hello! This is a test of your text-to-speech settings. The speech rate is currently set to "
    + rateText + ". How does this sound?"
  }

  /** The speech test's utterance: the settings' rate with the voice controls' pitch and
      volume, so it sounds as the narration will. */
  function TestUtterance(s: Settings, rateText: string): (u: Utterance)
    ensures u == Utterance(TestText(rateText), s.speechRate, SpeakPitch, SpeakVolume)
    ensures u.pitch == 1.0 && u.volume == 0.8
  {
    Utterance(TestText(rateText), s.speechRate, 1.0, 0.8)
  }

  /** `testSpeech`: nothing without a synthesis engine; otherwise cancel, then speak. */
  function TestSpeechCalls(s: Settings, synthesisAvailable: bool, rateText: string): (calls: seq<SynthCall>)
    ensures !synthesisAvailable ==> calls == []
    ensures synthesisAvailable ==> calls == [Cancel, Enqueue(TestUtterance(s, rateText))]
  {
    if synthesisAvailable then [Cancel, Enqueue(TestUtterance(s, rateText))] else []
  }

  /** After a speech test only the test utterance remains requested. */
  lemma TestSpeechPreempts(prior: seq<SynthCall>, s: Settings, rateText: string)
    ensures Requested(prior + TestSpeechCalls(s, true, rateText)) == [TestUtterance(s, rateText)]
  {
    CancelThenSpeak(prior, TestUtterance(s, rateText));
  }
}

=== FILE: text.dfy ===
/** The string operations the components use: `toLowerCase`, `includes`, `trim`,
    `slice(0, n)` and number-to-text. Strings are sequences of characters. */
module Text {

  /** `toLowerCase` on one character; only the letters A-Z are mapped. */
  function LowerChar(c: char): char {
    if 'A' <= c <= 'Z' then (c as int + 32) as char else c
  }

  /** `s.toLowerCase()`, character by character. */
  function Lower(s: string): (r: string)
    ensures |r| == |s|
    ensures forall i :: 0 <= i < |s| ==> !('A' <= r[i] <= 'Z')
    ensures forall i :: 0 <= i < |s| ==>
      (('A' <= s[i] <= 'Z') ==> r[i] as int == s[i] as int + 32) && (!('A' <= s[i] <= 'Z') ==> r[i] == s[i])
  {
    seq(|s|, i requires 0 <= i < |s| => LowerChar(s[i]))
  }

  lemma LowerIdempotent(s: string)
    ensures Lower(Lower(s)) == Lower(s)
  {
  }

  /** `s.includes(sub)`: `sub` occurs in `s`, tried from the left. */
  predicate Contains(s: string, sub: string)
    decreases |s|
  {
    sub <= s || (s != [] && Contains(s[1..], sub))
  }

  /** `Contains` agrees with the positional reading of `includes`. */
  lemma {:induction false} ContainsAt(s: string, sub: string)
    ensures Contains(s, sub) <==> exists i :: 0 <= i <= |s| - |sub| && sub <= s[i..]
    decreases |s|
  {
    if s == [] {
      if sub == [] {
        assert sub <= s[0..];
      }
    } else {
      ContainsAt(s[1..], sub);
      if Contains(s, sub) {
        if sub <= s {
          assert sub <= s[0..];
        } else {
          var j :| 0 <= j <= |s[1..]| - |sub| && sub <= s[1..][j..];
          assert s[1..][j..] == s[j + 1..];
        }
      } else {
        forall i | 0 <= i <= |s| - |sub|
          ensures !(sub <= s[i..])
        {
          if i == 0 {
            assert s[0..] == s;
          } else {
            assert s[1..][i - 1..] == s[i..];
          }
        }
      }
    }
  }

  /** An occurrence at a known position. */
  lemma ContainsWitness(s: string, sub: string, i: nat)
    requires i <= |s| && sub <= s[i..]
    ensures Contains(s, sub)
  {
    ContainsAt(s, sub);
  }

  /** A string lacking one of the characters of `sub` does not contain it. */
  lemma MissingCharNotContained(s: string, sub: string, c: char)
    requires c in sub && c !in s
    ensures !Contains(s, sub)
  {
    ContainsAt(s, sub);
  }

  /** Every string contains the empty string (`s.includes("")` is true). */
  lemma ContainsEmpty(s: string)
    ensures Contains(s, "")
  {
  }

  /** The characters `trim` removes: ASCII white space, no-break space and the byte-order mark. */
  predicate IsWhitespace(c: char) {
    c == ' ' || c == '\t' || c == '\n' || c == '\r' || c == '\U{0B}' || c == '\U{0C}'
    || c == '\U{A0}' || c == '\U{FEFF}'
  }

  function TrimStart(s: string): string
    decreases |s|
  {
    if s != [] && IsWhitespace(s[0]) then TrimStart(s[1..]) else s
  }

  function TrimEnd(s: string): string
    decreases |s|
  {
    if s != [] && IsWhitespace(s[|s| - 1]) then TrimEnd(s[..|s| - 1]) else s
  }

  /** `s.trim()`. */
  function Trim(s: string): string {
    TrimEnd(TrimStart(s))
  }

  /** Every character of `s` is white space. */
  predicate IsBlank(s: string) {
    forall i :: 0 <= i < |s| ==> IsWhitespace(s[i])
  }

  lemma {:induction false} TrimStartBlank(s: string)
    ensures TrimStart(s) == [] <==> IsBlank(s)
    ensures TrimStart(s) != [] ==> !IsWhitespace(TrimStart(s)[0])
    decreases |s|
  {
    if s != [] && IsWhitespace(s[0]) {
      TrimStartBlank(s[1..]);
      assert IsBlank(s[1..]) ==> IsBlank(s) by {
        if IsBlank(s[1..]) {
          forall i | 0 <= i < |s| ensures IsWhitespace(s[i]) {
            if i > 0 { assert s[i] == s[1..][i - 1]; }
          }
        }
      }
    }
  }

  lemma {:induction false} TrimEndKeepsHead(s: string)
    requires s != [] && !IsWhitespace(s[0])
    ensures TrimEnd(s) != []
    decreases |s|
  {
    if IsWhitespace(s[|s| - 1]) {
      TrimEndKeepsHead(s[..|s| - 1]);
    }
  }

  /** `code.trim()` is empty exactly when the code holds nothing but white space. */
  lemma TrimEmptyIffBlank(s: string)
    ensures Trim(s) == [] <==> IsBlank(s)
  {
    TrimStartBlank(s);
    if TrimStart(s) != [] {
      TrimEndKeepsHead(TrimStart(s));
    }
  }

  function DigitChar(d: nat): char
    requires d < 10
  {
    "0123456789"[d]
  }

  /** The decimal text of a natural number, as JavaScript prints it. */
  function NatToString(n: nat): (r: string)
    ensures |r| >= 1
    ensures forall i :: 0 <= i < |r| ==> '0' <= r[i] <= '9'
    decreases n
  {
    if n < 10 then [DigitChar(n)] else NatToString(n / 10) + [DigitChar(n % 10)]
  }

  /** `s.slice(0, n)`. */
  function Prefix(s: string, n: nat): (r: string)
    ensures |r| <= n && r <= s
    ensures |r| == if |s| < n then |s| else n
    ensures |s| <= n ==> r == s
  {
    if |s| <= n then s else s[..n]
  }
}

=== FILE: tutorials.dfy ===
/** The tutorials page: finding a tutorial's progress record, the overall completion
    percentage, search and filters, colour mappings and the per-card status, label,
    mastery bar and concept badges. */
module Tutorials {
  import opened Wrappers
  import opened Text
  import opened Entities

  /** `getProgressForTutorial`: the first progress record for the tutorial, if any. */
  function FindProgress(progress: seq<ProgressRecord>, tutorialId: string): (r: Option<ProgressRecord>)
    ensures r.None? <==> forall i :: 0 <= i < |progress| ==> progress[i].tutorialId != tutorialId
    ensures r.Some? ==> r.value.tutorialId == tutorialId
    ensures r.Some? ==>
      exists i :: (0 <= i < |progress| && progress[i] == r.value
                   && forall j :: 0 <= j < i ==> progress[j].tutorialId != tutorialId)
    decreases |progress|
  {
    if progress == [] then None
    else if progress[0].tutorialId == tutorialId then Some(progress[0])
    else
      var r := FindProgress(progress[1..], tutorialId);
      assert forall i :: 1 <= i < |progress| ==> progress[i] == progress[1..][i - 1];
      r
  }

  /** The number of progress records with the given status. */
  function CountStatus(progress: seq<ProgressRecord>, status: string): (n: nat)
    ensures n <= |progress|
    decreases |progress|
  {
    if progress == [] then 0
    else (if progress[0].completionStatus == status then 1 else 0) + CountStatus(progress[1..], status)
  }

  lemma {:induction false} CountStatusAppend(a: seq<ProgressRecord>, b: seq<ProgressRecord>, status: string)
    ensures CountStatus(a + b, status) == CountStatus(a, status) + CountStatus(b, status)
    decreases |a|
  {
    if a == [] {
      assert a + b == b;
    } else {
      assert (a + b)[0] == a[0];
      assert (a + b)[1..] == a[1..] + b;
      CountStatusAppend(a[1..], b, status);
    }
  }

  /** `Math.round(k / n * 100)`, exact over the integers: the nearest whole percentage,
      halves rounded up. */
  function RoundedPercent(k: nat, n: nat): (p: nat)
    requires n > 0
    ensures 2 * n * p <= 200 * k + n < 2 * n * (p + 1)
    ensures k <= n ==> p <= 100
    ensures k == 0 ==> p == 0
    ensures k == n ==> p == 100
  {
    var p := (200 * k + n) / (2 * n);
    RoundedPercentBounds(k, n, p);
    p
  }

  lemma RoundedPercentBounds(k: nat, n: nat, p: nat)
    requires n > 0 && p == (200 * k + n) / (2 * n)
    ensures 2 * n * p <= 200 * k + n < 2 * n * (p + 1)
    ensures k <= n ==> p <= 100
    ensures k == 0 ==> p == 0
    ensures k == n ==> p == 100
  {
    var m, q := 2 * n, 200 * k + n;
    assert m * p <= q < m * p + m;
    assert m * (p + 1) == m * p + m;
    if k <= n {
      MulCancel(m, p, 101);
    }
    if k == n {
      assert m * 99 < m * p;
      MulCancel(m, 99, p);
    }
  }

  /** A positive factor can be cancelled from a strict inequality. */
  lemma MulCancel(m: int, a: int, b: int)
    requires m > 0 && m * a < m * b
    ensures a < b
  {
    assert m * (b - a) == m * b - m * a;
  }

  /** `getCompletionPercentage`: 0 with no tutorials, otherwise the rounded share of
      completed progress records over the number of tutorials. */
  function CompletionPercentage(tutorials: seq<Tutorial>, progress: seq<ProgressRecord>): (p: nat)
    ensures tutorials == [] ==> p == 0
    ensures tutorials != [] ==>
      var k := CountStatus(progress, Completed);
      2 * |tutorials| * p <= 200 * k + |tutorials| < 2 * |tutorials| * (p + 1)
    ensures CountStatus(progress, Completed) <= |tutorials| ==> p <= 100
    ensures CountStatus(progress, Completed) == 0 ==> p == 0
  {
    if |tutorials| == 0 then 0 else RoundedPercent(CountStatus(progress, Completed), |tutorials|)
  }

  /** The share counts completed progress records, not tutorials: two completed records
      against a single listed tutorial give 200 percent. */
  lemma PercentageCountsRecords(t: Tutorial, r: ProgressRecord)
    requires r.completionStatus == Completed
    ensures CompletionPercentage([t], [r, r]) == 200
  {
    assert [r, r][1..] == [r];
    assert [r][1..] == [];
    assert CountStatus([r, r], Completed) == 2;
  }

  /** The search box: the lower-cased title, or the lower-cased description when there is
      one, contains the lower-cased term. */
  predicate MatchesSearch(t: Tutorial, searchTerm: string) {
    var term := Lower(searchTerm);
    Contains(Lower(t.title), term) || (t.description.Some? && Contains(Lower(t.description.value), term))
  }

  /** One tutorial passes the search and both filters ("all" lets everything through). */
  predicate Matches(t: Tutorial, searchTerm: string, language: string, level: string) {
    && MatchesSearch(t, searchTerm)
    && (language == "all" || t.programmingLanguage == language)
    && (level == "all" || t.difficultyLevel == level)
  }

  /** `a` is `b` with some elements left out, in the same order. */
  predicate IsSubsequence<T(==)>(a: seq<T>, b: seq<T>)
    decreases |b|
  {
    a == [] || (b != [] && ((a[0] == b[0] && IsSubsequence(a[1..], b[1..])) || IsSubsequence(a, b[1..])))
  }

  /** `filteredTutorials`: the tutorials that pass, in catalogue order. */
  function FilterTutorials(tutorials: seq<Tutorial>, searchTerm: string, language: string, level: string): (r: seq<Tutorial>)
    ensures |r| <= |tutorials|
    ensures forall t :: t in r <==> t in tutorials && Matches(t, searchTerm, language, level)
    ensures IsSubsequence(r, tutorials)
    ensures forall t :: multiset(r)[t] == if Matches(t, searchTerm, language, level) then multiset(tutorials)[t] else 0
    decreases |tutorials|
  {
    if tutorials == [] then []
    else
      var rest := FilterTutorials(tutorials[1..], searchTerm, language, level);
      assert tutorials == [tutorials[0]] + tutorials[1..];
      assert multiset(tutorials) == multiset{tutorials[0]} + multiset(tutorials[1..]);
      assert forall t :: t in tutorials <==> t == tutorials[0] || t in tutorials[1..];
      if Matches(tutorials[0], searchTerm, language, level) then
        var r := [tutorials[0]] + rest;
        assert r[1..] == rest;
        r
      else
        assert rest != [] ==> IsSubsequence(rest, tutorials[1..]);
        rest
  }

  /** With an empty search and both filters on "all", every tutorial is listed. */
  lemma {:induction false} FilterAllIsIdentity(tutorials: seq<Tutorial>)
    ensures FilterTutorials(tutorials, "", "all", "all") == tutorials
    decreases |tutorials|
  {
    if tutorials != [] {
      ContainsEmpty(Lower(tutorials[0].title));
      assert Lower("") == "";
      FilterAllIsIdentity(tutorials[1..]);
      assert [tutorials[0]] + tutorials[1..] == tutorials;
    }
  }

  /** Filtering again with the same settings changes nothing. */
  lemma {:induction false} FilterIdempotent(tutorials: seq<Tutorial>, searchTerm: string, language: string, level: string)
    ensures var once := FilterTutorials(tutorials, searchTerm, language, level);
            FilterTutorials(once, searchTerm, language, level) == once
    decreases |tutorials|
  {
    if tutorials != [] {
      FilterIdempotent(tutorials[1..], searchTerm, language, level);
      var rest := FilterTutorials(tutorials[1..], searchTerm, language, level);
      if Matches(tutorials[0], searchTerm, language, level) {
        assert ([tutorials[0]] + rest)[1..] == rest;
      }
    }
  }

  const Gray := "bg-gray-100 text-gray-800"
  const Levels: set<string> := {"beginner", "intermediate", "advanced"}
  const LanguageKeys: set<string> := {"python", "javascript", "java", "cpp", "html_css"}

  /** `getDifficultyColor`: a colour per level, gray for anything else. */
  function DifficultyColor(level: string): (c: string)
    ensures c == Gray <==> level !in Levels
  {
    match level
    case "beginner" => "bg-green-100 text-green-800"
    case "intermediate" => "bg-yellow-100 text-yellow-800"
    case "advanced" => "bg-red-100 text-red-800"
    case _ => Gray
  }

  /** `getLanguageColor`: a colour per supported language, gray for anything else. */
  function LanguageColor(language: string): (c: string)
    ensures c == Gray <==> language !in LanguageKeys
  {
    match language
    case "python" => "bg-blue-100 text-blue-800"
    case "javascript" => "bg-orange-100 text-orange-800"
    case "java" => "bg-red-100 text-red-800"
    case "cpp" => "bg-purple-100 text-purple-800"
    case "html_css" => "bg-pink-100 text-pink-800"
    case _ => Gray
  }

  /** The three levels get three different colours. */
  lemma DifficultyColorsDistinct(a: string, b: string)
    requires a in Levels && b in Levels && a != b
    ensures DifficultyColor(a) != DifficultyColor(b)
  {
    assert DifficultyColor(a)[3] != DifficultyColor(b)[3];
  }

  predicate IsCompleted(p: Option<ProgressRecord>) {
    p.Some? && p.value.completionStatus == Completed
  }

  predicate IsInProgress(p: Option<ProgressRecord>) {
    p.Some? && p.value.completionStatus == InProgress
  }

  /** The card's button: "Review" once completed, "Continue" while in progress, else "Start". */
  function ButtonLabel(p: Option<ProgressRecord>): (caption: string)
    ensures caption == "Review" <==> IsCompleted(p)
    ensures caption == "Continue" <==> IsInProgress(p)
    ensures caption == "Start" <==> !IsCompleted(p) && !IsInProgress(p)
  {
    if IsCompleted(p) then "Review" else if IsInProgress(p) then "Continue" else "Start"
  }

  /** The card's status line. */
  function StatusText(p: Option<ProgressRecord>): (text: string)
    ensures text == "Completed" <==> IsCompleted(p)
    ensures text != "Completed" ==> text == "Ready to learn"
  {
    if IsCompleted(p) then "Completed" else "Ready to learn"
  }

  /** An in-progress tutorial is still "Ready to learn" in the status line. */
  lemma StatusAgreesWithLabel(p: Option<ProgressRecord>)
    ensures StatusText(p) == "Completed" <==> ButtonLabel(p) == "Review"
    ensures ButtonLabel(p) == "Continue" ==> StatusText(p) == "Ready to learn"
  {
  }

  /** What `isInProgress && progress?.mastery_score && (...)` renders: nothing, the bar
      with its score, or, for a score of 0, the number 0 itself as text. */
  datatype MasteryView = NoBar | Bar(score: int) | StrayZero

  function MasteryBar(p: Option<ProgressRecord>): (v: MasteryView)
    ensures v.Bar? <==> IsInProgress(p) && p.value.masteryScore.Some? && p.value.masteryScore.value != 0
    ensures v.Bar? ==> v.score == p.value.masteryScore.value
    ensures v == StrayZero <==> IsInProgress(p) && p.value.masteryScore == Some(0)
    ensures !IsInProgress(p) ==> v == NoBar
  {
    if !IsInProgress(p) || p.value.masteryScore.None? then NoBar
    else if p.value.masteryScore.value == 0 then StrayZero
    else Bar(p.value.masteryScore.value)
  }

  /** Only an in-progress tutorial shows a bar, so it never sits beside a "Review" or
      "Start" button. */
  lemma MasteryBarOnlyWhileContinuing(p: Option<ProgressRecord>)
    ensures MasteryBar(p) != NoBar ==> ButtonLabel(p) == "Continue" && StatusText(p) == "Ready to learn"
  {
  }

  /** The concept badges: at most three concepts, then "+n more" for the rest. */
  datatype ConceptBadges = ConceptBadges(shown: seq<string>, more: Option<string>)

  function ConceptSection(concepts: Option<seq<string>>): (b: Option<ConceptBadges>)
    ensures b.None? <==> concepts.GetOr([]) == []
    ensures b.Some? ==> |b.value.shown| <= 3 && b.value.shown <= concepts.value
    ensures b.Some? ==> (|b.value.shown| == 3 || b.value.shown == concepts.value)
    ensures b.Some? ==> (b.value.more.Some? <==> |concepts.value| > 3)
    ensures b.Some? && b.value.more.Some? ==>
      b.value.more.value == "+" + NatToString(|concepts.value| - |b.value.shown|) + " more"
  {
    if concepts.None? || |concepts.value| == 0 then None
    else
      var cs := concepts.value;
      Some(ConceptBadges(if |cs| > 3 then cs[..3] else cs, if |cs| > 3 then Some("+" + NatToString(|cs| - 3) + " more") else None))
  }
}

=== FILE: voice_controls.dfy ===
/** The voice controls component: a speech-output controller (the `isSpeaking` flag and the
    calls it makes on the synthesis engine) and a speech-input controller (the `isListening`
    flag and the calls it makes on the recognition engine). Engine events arrive as methods. */
module VoiceControls {
  import opened Wrappers

  /** A `SpeechSynthesisUtterance` as configured before it is handed to the engine. */
  datatype Utterance = Utterance(text: string, rate: real, pitch: real, volume: real)

  /** The calls made on the synthesis engine. */
  datatype SynthCall = Cancel | Enqueue(utterance: Utterance)

  /** The calls made on the recognition engine. */
  datatype RecognitionCall = Start | Stop

  const SpeakPitch: real := 1.0
  const SpeakVolume: real := 0.8

  /** The utterances handed to the synthesis engine since it was last cancelled, oldest
      first: what the engine may still play. */
  function Requested(calls: seq<SynthCall>): (q: seq<Utterance>)
    ensures |q| <= |calls|
  {
    if calls == [] then []
    else match calls[|calls| - 1]
      case Cancel => []
      case Enqueue(u) => Requested(calls[..|calls| - 1]) + [u]
  }

  /** Cancelling and then speaking leaves exactly the new utterance requested. */
  lemma CancelThenSpeak(calls: seq<SynthCall>, u: Utterance)
    ensures Requested(calls + [Cancel, Enqueue(u)]) == [u]
  {
    var c := calls + [Cancel, Enqueue(u)];
    assert c[..|c| - 1] == calls + [Cancel];
  }

  /** Two speak requests in a row: the second preempts the first (last request wins). */
  lemma {:induction false} LastRequestWins(calls: seq<SynthCall>, u1: Utterance, u2: Utterance)
    ensures Requested(calls + [Cancel, Enqueue(u1)] + [Cancel, Enqueue(u2)]) == [u2]
  {
    CancelThenSpeak(calls + [Cancel, Enqueue(u1)], u2);
  }

  class Controls {
    /** The `voiceEnabled` and `speechRate` props. */
    const voiceEnabled: bool
    const speechRate: real
    /** A recognition engine exists (`speechSupported`). */
    const recognitionAvailable: bool
    /** `'speechSynthesis' in window`. */
    const synthesisAvailable: bool

    var isListening: bool
    var isSpeaking: bool

    ghost var synthCalls: seq<SynthCall>
    ghost var recognitionCalls: seq<RecognitionCall>
    /** Transcripts delivered to the `onSpeechResult` consumer. */
    ghost var transcripts: seq<string>

    ghost predicate Valid()
      reads this
    {
      && (isListening ==> recognitionAvailable)
      && (isSpeaking ==> voiceEnabled && synthesisAvailable)
      && |Requested(synthCalls)| <= 1
      && (Requested(synthCalls) != [] ==> voiceEnabled && synthesisAvailable)
    }

    constructor (voiceEnabled: bool, speechRate: real, recognitionAvailable: bool, synthesisAvailable: bool)
      ensures Valid()
      ensures this.voiceEnabled == voiceEnabled && this.speechRate == speechRate
      ensures this.recognitionAvailable == recognitionAvailable && this.synthesisAvailable == synthesisAvailable
      ensures !isListening && !isSpeaking
      ensures synthCalls == [] && recognitionCalls == [] && transcripts == []
    {
      this.voiceEnabled := voiceEnabled;
      this.speechRate := speechRate;
      this.recognitionAvailable := recognitionAvailable;
      this.synthesisAvailable := synthesisAvailable;
      isListening, isSpeaking := false, false;
      synthCalls, recognitionCalls, transcripts := [], [], [];
    }

    /** `speak(text)`: a no-op without voice or synthesis; otherwise cancels whatever is
        playing and hands the engine one new utterance. The flag waits for the engine's
        start event. */
    method Speak(text: string)
      requires Valid()
      modifies this
      ensures Valid()
      ensures voiceEnabled && synthesisAvailable ==>
        synthCalls == old(synthCalls) + [Cancel, Enqueue(Utterance(text, speechRate, SpeakPitch, SpeakVolume))]
      ensures !(voiceEnabled && synthesisAvailable) ==> synthCalls == old(synthCalls)
      ensures voiceEnabled && synthesisAvailable ==>
        Requested(synthCalls) == [Utterance(text, speechRate, SpeakPitch, SpeakVolume)]
      ensures isSpeaking == old(isSpeaking) && isListening == old(isListening)
      ensures recognitionCalls == old(recognitionCalls) && transcripts == old(transcripts)
    {
      if voiceEnabled && synthesisAvailable {
        var u := Utterance(text, speechRate, SpeakPitch, SpeakVolume);
        CancelThenSpeak(synthCalls, u);
        synthCalls := synthCalls + [Cancel, Enqueue(u)];
      }
    }

    /** `stopSpeaking()`: cancels the engine and clears the flag at once. Without a
        synthesis engine the cancel call throws before the flag is touched; the flag is
        then already clear. */
    method StopSpeaking()
      requires Valid()
      modifies this
      ensures Valid()
      ensures !isSpeaking
      ensures synthCalls == if synthesisAvailable then old(synthCalls) + [Cancel] else old(synthCalls)
      ensures Requested(synthCalls) == []
      ensures isListening == old(isListening)
      ensures recognitionCalls == old(recognitionCalls) && transcripts == old(transcripts)
    {
      if synthesisAvailable {
        synthCalls := synthCalls + [Cancel];
        assert synthCalls[..|synthCalls| - 1] == old(synthCalls);
        isSpeaking := false;
      }
    }

    /** The utterance's `onstart` event; the engine starts only an utterance it was given. */
    method OnUtteranceStart()
      requires Valid()
      requires Requested(synthCalls) != []
      modifies this`isSpeaking
      ensures Valid() && isSpeaking
    {
      isSpeaking := true;
    }

    /** The utterance's `onend` event, whichever utterance it belongs to. */
    method OnUtteranceEnd()
      requires Valid()
      modifies this`isSpeaking
      ensures Valid() && !isSpeaking
    {
      isSpeaking := false;
    }

    /** The utterance's `onerror` event, whichever utterance it belongs to. */
    method OnUtteranceError()
      requires Valid()
      modifies this`isSpeaking
      ensures Valid() && !isSpeaking
    {
      isSpeaking := false;
    }

    /** `startListening()`: starts the engine only when one exists and no capture is
        active. The flag waits for the engine's start event. */
    method StartListening()
      requires Valid()
      modifies this`recognitionCalls
      ensures Valid()
      ensures recognitionCalls ==
        if recognitionAvailable && !isListening then old(recognitionCalls) + [Start] else old(recognitionCalls)
    {
      if recognitionAvailable && !isListening {
        recognitionCalls := recognitionCalls + [Start];
      }
    }

    /** `stopListening()`: acts only while listening; stops the engine and clears the flag
        without waiting for the engine. */
    method StopListening()
      requires Valid()
      modifies this`recognitionCalls, this`isListening
      ensures Valid() && !isListening
      ensures recognitionCalls ==
        if recognitionAvailable && old(isListening) then old(recognitionCalls) + [Stop] else old(recognitionCalls)
    {
      if recognitionAvailable && isListening {
        recognitionCalls := recognitionCalls + [Stop];
        isListening := false;
      }
    }

    /** The recognition engine's `onstart` event (handlers exist only when an engine does). */
    method OnRecognitionStart()
      requires Valid() && recognitionAvailable
      modifies this`isListening
      ensures Valid() && isListening
    {
      isListening := true;
    }

    /** The recognition engine's `onresult` event: delivers the first alternative of the
        first result, once, then clears the flag. A result list without that alternative
        makes the handler throw before it delivers or clears anything. */
    method OnRecognitionResult(results: seq<seq<string>>) returns (delivered: Option<string>)
      requires Valid() && recognitionAvailable
      modifies this`isListening, this`transcripts
      ensures Valid()
      ensures |results| > 0 && |results[0]| > 0 ==>
        delivered == Some(results[0][0]) && transcripts == old(transcripts) + [results[0][0]] && !isListening
      ensures !(|results| > 0 && |results[0]| > 0) ==>
        delivered == None && transcripts == old(transcripts) && isListening == old(isListening)
    {
      if |results| > 0 && |results[0]| > 0 {
        var transcript := results[0][0];
        transcripts := transcripts + [transcript];
        isListening := false;
        delivered := Some(transcript);
      } else {
        delivered := None;
      }
    }

    /** The recognition engine's `onerror` event: logged, no transcript. */
    method OnRecognitionError(code: string)
      requires Valid() && recognitionAvailable
      modifies this`isListening
      ensures Valid() && !isListening
    {
      isListening := false;
    }

    /** The recognition engine's `onend` event: no transcript. */
    method OnRecognitionEnd()
      requires Valid() && recognitionAvailable
      modifies this`isListening
      ensures Valid() && !isListening
    {
      isListening := false;
    }

    /** The microphone button is enabled with voice on and an engine present. */
    predicate MicEnabled()
      reads this
    {
      voiceEnabled && recognitionAvailable
    }

    /** The speaker button is enabled only while speaking with voice on. */
    predicate SpeakerEnabled()
      reads this
    {
      voiceEnabled && isSpeaking
    }

    /** The "not supported" notice replaces the controls when neither engine exists. */
    predicate ShowsUnsupportedNotice()
      reads this
    {
      !recognitionAvailable && !synthesisAvailable
    }

    /** While the notice shows, no control is rendered, and none would be enabled: nothing
        is listening, speaking or requested of an engine. */
    lemma UnsupportedNoticeMeansSilence()
      requires Valid() && ShowsUnsupportedNotice()
      ensures !MicEnabled() && !SpeakerEnabled()
      ensures !isListening && !isSpeaking && Requested(synthCalls) == []
    {
    }

    /** A click on the microphone button: stop while listening, start otherwise; a
        disabled button ignores the click. */
    method ClickMic()
      requires Valid()
      modifies this`recognitionCalls, this`isListening
      ensures Valid()
      ensures !MicEnabled() ==> recognitionCalls == old(recognitionCalls) && isListening == old(isListening)
      ensures MicEnabled() && old(isListening) ==> recognitionCalls == old(recognitionCalls) + [Stop] && !isListening
      ensures MicEnabled() && !old(isListening) ==> recognitionCalls == old(recognitionCalls) + [Start] && !isListening
    {
      if MicEnabled() {
        if isListening {
          StopListening();
        } else {
          StartListening();
        }
      }
    }

    /** A click on the speaker button stops speech; it is disabled unless speaking. */
    method ClickSpeaker()
      requires Valid()
      modifies this
      ensures Valid()
      ensures old(SpeakerEnabled()) ==> !isSpeaking && synthCalls == old(synthCalls) + [Cancel]
      ensures old(SpeakerEnabled()) ==> Requested(synthCalls) == []
      ensures !old(SpeakerEnabled()) ==> synthCalls == old(synthCalls) && isSpeaking == old(isSpeaking)
      ensures isListening == old(isListening) && recognitionCalls == old(recognitionCalls)
      ensures transcripts == old(transcripts)
    {
      if SpeakerEnabled() {
        StopSpeaking();
      }
    }
  }

  /** One listening cycle: start, the engine's start event, a result. Exactly one
      transcript is delivered and the controller is idle again. */
  method ListeningCycle(c: Controls, transcript: string) returns (delivered: Option<string>)
    requires c.Valid() && c.recognitionAvailable && !c.isListening
    modifies c
    ensures c.Valid() && !c.isListening
    ensures delivered == Some(transcript)
    ensures c.transcripts == old(c.transcripts) + [transcript]
    ensures c.recognitionCalls == old(c.recognitionCalls) + [Start]
  {
    c.StartListening();
    c.OnRecognitionStart();
    assert c.isListening;
    delivered := c.OnRecognitionResult([[transcript]]);
  }

  /** Two overlapping speak requests with their engine events: the first utterance is
      preempted, and afterwards the controller is idle with nothing left requested. */
  method OverlappingSpeech(c: Controls, first: string, second: string)
    requires c.Valid() && c.voiceEnabled && c.synthesisAvailable
    modifies c
    ensures c.Valid() && !c.isSpeaking
    ensures Requested(c.synthCalls) == [Utterance(second, c.speechRate, SpeakPitch, SpeakVolume)]
  {
    c.Speak(first);
    c.OnUtteranceStart();
    c.Speak(second);
    assert Requested(c.synthCalls) == [Utterance(second, c.speechRate, SpeakPitch, SpeakVolume)];
    c.OnUtteranceError();
    c.OnUtteranceStart();
    c.OnUtteranceEnd();
  }
}

=== FILE: wrappers.dfy ===
/** Optional values: the model's stand-in for JavaScript's null / undefined. */
module Wrappers {

  datatype Option<+T> = None | Some(value: T) {

    /** The value, or `default` when absent: JavaScript's `x ?? default`. */
    function GetOr(default: T): T {
      match this
      case Some(v) => v
      case None => default
    }
  }
}
